=== FILE: README.md ===
# Amsterdam trip planner: the trip store, modelled in Dafny

The trip planner keeps the whole trip in one document: trip information,
activities, a budget with its expenses, the hotel, the transport (two journey
legs and a list of local transports), participants and a packing checklist.
`Amsterdam/data_manager.py` is the store over this document. Activities,
expenses, participants and checklist items get ids `max(ids present, default 0) + 1`.
Records are updated and deleted by id, checklist items are toggled, and three
aggregates are computed: total spend, spend per category and checklist progress.
A few screens add rules on top of the store:
- the checklist screen's add guard and its bulk check / uncheck / delete-checked actions;
- the transport screen's local-transport list edits and leg saving;
- the budget screen's expense form and its remaining-budget status.

The model is functional. Each store call is a pure function from the current
document to the next document and the value the call returns. A write touches
only its own section, and every contract says so.

Modules, one per concern:

- `Wrappers` (wrappers.dfy): `Option`, `Result`.
- `Records` (records.dfy): the entities. A collection record is `Entry<T>(id: Option<int>, body: T)`.
  The fields the store reads with a default are `Option`s: an expense's
  category ("Autre") and amount (0), and a checklist item's checked flag (false).
- `Collection` (collection.dfy): fresh id, add, update, delete, and the id
  invariant ("well keyed": every record has an id and no two share one).
- `Checklist` (checklist.dfy): add with the checked default, toggle, progress.
- `Expenses` (expenses.dfy): total and per-category totals.
- `Store` (store.dfy): the document-level operations of `data_manager.py` and the store invariant.
- `Defaults` (defaults.dfy): `DEFAULT_DATA` of `config.py`.
- `Text` (text.dfy): `str.strip()`.
- `ChecklistScreen`, `TransportScreen`, `BudgetScreen`: the screen rules.
- `Lifecycle` (lifecycle.dfy): facts about the default document and call sequences from a reset.

Details of the code's behaviour that the model keeps:

- Ids are fresh only with respect to the ids currently present. After the
  largest id is deleted, the next add issues it again
  (`Lifecycle.IdReusedAfterDeletingMax`). The code does not guarantee that
  ids are never reused.
- Delete drops every record carrying the id, not only the first one.
- A record without an id counts as 0 when the next id is computed. It is
  never matched by update, delete or toggle.
- `check_all`, `uncheck_all` and `delete_checked` read `item['id']` directly.
  An item without an id raises an exception there, and the writes made
  before it stay in the store. The model returns the document as it stands
  then, with `aborted` set, and states which items a stopped check-all or
  uncheck-all has already changed.

## Model

| member | source | states |
|---|---|---|
| Collection.MaxId | Amsterdam/data_manager.py:159 | the largest id with a missing id read as 0: not below any id present and equal to one of them; 0 for an empty collection |
| Collection.NextId | Amsterdam/data_manager.py:159 | the new id is greater than every id present, is carried by no record, is 1 on an empty collection, and is exactly one more than an id present |
| Collection.Add | Amsterdam/data_manager.py:156-166 | the payload is appended last under the fresh id, whatever id it carried; the length grows by one; the id is 1 on an empty collection and one more than the largest id otherwise |
| Collection.FindIndex | Amsterdam/data_manager.py:182-183 | finds the first position carrying the id, with no earlier match; absent exactly when no record carries the id |
| Collection.Update | Amsterdam/data_manager.py:180-190 | succeeds iff the id is present; then only the first match is replaced, at the same position, and the stored id is the requested one; otherwise the collection is unchanged |
| Collection.Without | Amsterdam/data_manager.py:206 | keeps exactly the records not carrying the id, which all come from the input; the length drops iff the id occurs; nothing changes when it does not |
| Collection.Delete | Amsterdam/data_manager.py:203-213 | reports success iff the length decreased iff the id was present; no record with the id remains; every other record stays; a failed delete changes nothing |
| Collection.WithoutAppend | Amsterdam/data_manager.py:206 | the filter distributes over concatenation, so the remaining records keep their relative order |
| Collection.DeleteTwice | Amsterdam/data_manager.py:203-213 | deleting a present id twice returns true, then false, and the second call changes nothing |
| Collection.FindIndexUnique | Amsterdam/data_manager.py:182-183 | with distinct ids, the first record carrying a record's id is that record |
| Collection.AddKeepsWellKeyed | Amsterdam/data_manager.py:156-166 | add keeps ids present and distinct |
| Collection.UpdateKeepsWellKeyed | Amsterdam/data_manager.py:180-190 | update keeps ids present and distinct |
| Collection.DeleteKeepsWellKeyed | Amsterdam/data_manager.py:203-213 | delete keeps ids present and distinct |
| Collection.WithoutKeepsUniqueIds | Amsterdam/data_manager.py:206 | filtering out one id keeps the remaining ids distinct |
| Collection.DeleteUndoesAdd | Amsterdam/data_manager.py:156-213 | deleting the id an add just returned succeeds and gives back the collection as it was before the add |
| Collection.NumberedFacts | Amsterdam/data_manager.py:159 | a collection numbered 1..n is well keyed and the next id is n + 1 |
| Collection.NumberedWithoutFirst | Amsterdam/data_manager.py:206 | on a collection numbered 1..n, dropping id 1 removes exactly the first record |
| Collection.AddThenDeleteFirst | Amsterdam/data_manager.py:156-213 | on a collection numbered 1..n, add returns n + 1, and deleting id 1 then succeeds and leaves the old records 2..n followed by the new one, numbered 2..n + 1 |
| Checklist.AddItem | Amsterdam/data_manager.py:489-500 | the item is appended under the next id, max(ids, default 0) + 1 (1 when empty), which no item carries, with text and category kept; a missing checked flag is stored as false and a given one is kept |
| Checklist.Toggle | Amsterdam/data_manager.py:513-522 | flips the flag of the first item with the id, a missing flag reading as false, and returns the new value; an unknown id changes nothing and returns false; ids, texts and categories are kept |
| Checklist.ToggleTwice | Amsterdam/data_manager.py:513-522 | two toggles return the new state and then the original one, and restore the list; an item with no stored flag ends with an explicit false |
| Checklist.CountChecked | Amsterdam/data_manager.py:561 | the checked count is at most the length; it equals the length iff every item is checked and is 0 iff none is |
| Checklist.CountCheckedAppend | Amsterdam/data_manager.py:561 | the checked count is additive over concatenation |
| Checklist.PercentageBounds | Amsterdam/data_manager.py:562 | the whole percentage of checked/total lies in 0..100, is the floor of the ratio, and is 100 iff all are checked |
| Checklist.GetProgress | Amsterdam/data_manager.py:555-564 | (0, 0, 0) when empty; otherwise the checked count and the length, with 0 <= checked <= total; the percentage is the floor of checked*100/total, in 0..100, 100 iff all checked, 0 when none |
| Expenses.Total | Amsterdam/data_manager.py:303-311 | 0 for no expenses; with no negative amount, non-negative and at least each single amount (missing = 0) |
| Store.GetTotalDepenses | Amsterdam/data_manager.py:303-311 | the total of the stored expenses (Expenses.Total): 0 when there are none, non-negative when no amount is negative |
| Store.GetDepensesByCategory | Amsterdam/data_manager.py:314-328 | the per-category map of the stored expenses (Expenses.ByCategory): keyed by exactly the categories that occur, each mapped to its spend |
| Store.GetChecklistProgress | Amsterdam/data_manager.py:546-564 | the progress of the stored checklist (Checklist.GetProgress): total is the length, checked at most total, percentage at most 100 and equal to 100 iff every item is checked |
| Expenses.TotalAppend | Amsterdam/data_manager.py:303-311 | the total spend is additive over concatenation, so adding an expense adds its amount, missing = 0 |
| Expenses.CategorySumAppend | Amsterdam/data_manager.py:324-326 | one category's spend is additive over concatenation |
| Expenses.CategorySumAbsent | Amsterdam/data_manager.py:324-326 | a category that does not occur has no spend |
| Expenses.AccumulateStep | Amsterdam/data_manager.py:324-326 | adding one expense to its category's running total keeps the map equal, key for key, to the per-category spend of the expenses seen so far |
| Expenses.SingleExpense | Amsterdam/data_manager.py:303-328 | for one expense the total is its amount and the per-category map has its category alone, mapped to that amount |
| Expenses.ByCategory | Amsterdam/data_manager.py:314-328 | the keys are exactly the categories that occur (missing = "Autre"); each value is that category's spend |
| Expenses.ByCategorySumsToTotal | Amsterdam/data_manager.py:303-328 | the per-category values add up to the total spend |
| Store.ResetToDefaults | Amsterdam/data_manager.py:97-104 | whatever the document held, the result has three activities, one expense, two participants and twelve checklist items, each collection numbered from 1, nothing checked, and a planned budget of 500 |
| Store.UpdateVoyageInfo | Amsterdam/data_manager.py:121-129 | the trip information is replaced wholesale; every other section is unchanged |
| Store.UpdateHotel | Amsterdam/data_manager.py:345-353 | the hotel section is replaced wholesale; every other section is unchanged |
| Store.UpdateTransport | Amsterdam/data_manager.py:370-378 | the transport section is replaced wholesale; every other section is unchanged |
| Store.UpdateBudgetPrevu | Amsterdam/data_manager.py:265-275 | only the planned budget changes; the expenses, the currency and every other section are untouched |
| Store.AddActivite | Amsterdam/data_manager.py:146-166 | the activity is appended under the returned id, which is the next id, max(ids, default 0) + 1 (1 when empty), above every id present; only the activities change |
| Store.UpdateActivite | Amsterdam/data_manager.py:169-190 | succeeds iff the id is present, with the collection update's effect on the activities alone |
| Store.DeleteActivite | Amsterdam/data_manager.py:193-213 | succeeds iff the id is present, with the collection delete's effect on the activities alone |
| Store.AddDepense | Amsterdam/data_manager.py:240-262 | the expense is appended under the returned id, which is the next id, max(ids, default 0) + 1 (1 when empty), above every id present; the planned budget, the currency and the other sections are unchanged |
| Store.DeleteDepense | Amsterdam/data_manager.py:278-300 | succeeds iff the id is present; only the expenses change |
| Store.AddParticipant | Amsterdam/data_manager.py:395-415 | the participant is appended under the returned id, which is the next id, max(ids, default 0) + 1 (1 when empty), above every id present; only the participants change |
| Store.UpdateParticipant | Amsterdam/data_manager.py:418-439 | succeeds iff the id is present, with the collection update's effect on the participants alone |
| Store.DeleteParticipant | Amsterdam/data_manager.py:442-462 | succeeds iff the id is present, with the collection delete's effect on the participants alone |
| Store.AddChecklistItem | Amsterdam/data_manager.py:479-500 | the item is stored last under the returned id, which is the next id, max(ids, default 0) + 1 (1 when empty), with the checked default; only the checklist changes |
| Store.ToggleChecklistItem | Amsterdam/data_manager.py:503-522 | the toggle's effect on the checklist alone; for a present id it returns the new flag, the opposite of the first match's old flag, which that item now holds; an unknown id leaves the document as it was and returns false |
| Store.DeleteChecklistItem | Amsterdam/data_manager.py:525-545 | succeeds iff the id is present; only the checklist changes |
| Store.ResetEstablishesInvariant | Amsterdam/data_manager.py:97-104 | after a reset every collection has present and distinct ids |
| Store.ToggleKeepsInvariant | Amsterdam/data_manager.py:513-522 | toggling keeps every collection well keyed |
| Store.WritesKeepInvariant | Amsterdam/data_manager.py:121-545 | every write of the store keeps every collection well keyed |
| Text.StartOfText | Amsterdam/frames/checklist_frame.py:59 | the first position at or after i that is not whitespace, everything skipped being whitespace; the length when there is none |
| Text.EndOfText | Amsterdam/frames/checklist_frame.py:59 | the end moved back over whitespace but not below the start: everything skipped is whitespace and the character before the new end is not |
| Text.Strip | Amsterdam/frames/checklist_frame.py:59 | the slice left once the whitespace at both ends is dropped; it is empty iff the text is all whitespace |
| ChecklistScreen.AddItem | Amsterdam/frames/checklist_frame.py:59-76 | refused iff the stripped text or the category is empty: empty text is reported as such, and non-empty text with no category as a missing category; otherwise exactly one item is appended, unchecked, with the stripped text, under the next id, and nothing else changes |
| ChecklistScreen.CheckAllFrom | Amsterdam/frames/checklist_frame.py:116-122 | the check-all loop keeps length, order, ids, texts and categories, and stops with `aborted` exactly when an unchecked item from position i on has no id (the key lookup raises there) |
| ChecklistScreen.UncheckAllFrom | Amsterdam/frames/checklist_frame.py:132-138 | the uncheck-all loop keeps length, order, ids, texts and categories, and stops with `aborted` exactly when a checked item from position i on has no id (the key lookup raises there) |
| ChecklistScreen.CheckAll | Amsterdam/frames/checklist_frame.py:109-122 | only the checklist changes, and only in checked flags; the action aborts exactly when some unchecked item has no id |
| ChecklistScreen.UncheckAll | Amsterdam/frames/checklist_frame.py:125-138 | only the checklist changes, and only in checked flags; the action aborts exactly when some checked item has no id |
| ChecklistScreen.ToggleOwnId | Amsterdam/data_manager.py:515-520 | with distinct ids, toggling the id of an item that has one flips that item alone and keeps the ids distinct |
| ChecklistScreen.CheckAllFromAt | Amsterdam/frames/checklist_frame.py:116-122 | with distinct ids (items without id allowed), after the check-all loop from position i, an item is unchanged if it lies before i, is already checked, or lies at or after the first unchecked item without id; otherwise it is checked |
| ChecklistScreen.UncheckAllFromAt | Amsterdam/frames/checklist_frame.py:132-138 | the same for the uncheck-all loop: an item is unchanged if it lies before i, is not checked, or lies at or after the first checked item without id; otherwise it is unchecked |
| ChecklistScreen.CheckAllFromStops | Amsterdam/frames/checklist_frame.py:116-122 | the per-item statement of CheckAllFromAt for every item at once |
| ChecklistScreen.UncheckAllFromStops | Amsterdam/frames/checklist_frame.py:132-138 | the per-item statement of UncheckAllFromAt for every item at once |
| ChecklistScreen.CheckAllKeepsEarlierWrites | Amsterdam/frames/checklist_frame.py:109-122 | with distinct ids, check-all checks every unchecked item before the first unchecked item without id, and those writes stay even when it stops there; nothing from that item on changes |
| ChecklistScreen.UncheckAllKeepsEarlierWrites | Amsterdam/frames/checklist_frame.py:125-138 | with distinct ids, uncheck-all unchecks every checked item before the first checked item without id, and those writes stay even when it stops there; nothing from that item on changes |
| ChecklistScreen.CheckAllFromWellKeyed | Amsterdam/frames/checklist_frame.py:118-120 | on a well-keyed checklist the loop never stops early, and from position i on, every unchecked item becomes checked and every other item is untouched |
| ChecklistScreen.UncheckAllFromWellKeyed | Amsterdam/frames/checklist_frame.py:134-136 | on a well-keyed checklist the loop never stops early, and from position i on, every checked item becomes unchecked and every other item is untouched |
| ChecklistScreen.CheckAllChecksEverything | Amsterdam/frames/checklist_frame.py:116-122 | on a well-keyed checklist, check-all completes with every item checked, and items already checked are never toggled |
| ChecklistScreen.UncheckAllClearsEverything | Amsterdam/frames/checklist_frame.py:132-138 | on a well-keyed checklist, uncheck-all completes with no item checked, and unchecked items are never toggled |
| ChecklistScreen.CheckAllNeedsDistinctIds | Amsterdam/frames/checklist_frame.py:118-120 | two unchecked items sharing an id are both still unchecked after check-all |
| ChecklistScreen.CheckedItems | Amsterdam/frames/checklist_frame.py:149 | the snapshot holds exactly the checked items |
| ChecklistScreen.UncheckedItems | Amsterdam/frames/checklist_frame.py:148-162 | the reference for what delete-checked keeps: exactly the unchecked items |
| ChecklistScreen.DeleteEach | Amsterdam/frames/checklist_frame.py:160-162 | the delete loop aborts exactly when some snapshot item has no id, and it only ever drops items |
| ChecklistScreen.DeleteChecked | Amsterdam/frames/checklist_frame.py:148-162 | only the checklist changes, and with no checked item nothing changes at all; the action aborts exactly when some checked item has no id; it only ever drops items, never adds one |
| ChecklistScreen.DeleteCheckedDropsCheckedIds | Amsterdam/frames/checklist_frame.py:148-162 | when every checked item has an id, delete-checked completes and drops exactly the items carrying a checked item's id, keeping the rest in order |
| ChecklistScreen.DeleteEachDropsIds | Amsterdam/frames/checklist_frame.py:160-162 | deleting each id of a snapshot drops exactly the items carrying one of its ids, in order |
| ChecklistScreen.DeleteCheckedKeepsUnchecked | Amsterdam/frames/checklist_frame.py:148-162 | on a well-keyed checklist, delete-checked completes and leaves exactly the unchecked items in their original order |
| TransportScreen.AddLocalTransport | Amsterdam/frames/transport_frame.py:34-58 | refused iff the type or the description is empty; otherwise {type, description, prix} is appended last, the list grows by one, and the legs and other sections are unchanged |
| TransportScreen.DeleteLocalTransport | Amsterdam/frames/transport_frame.py:86-93 | an index inside the list removes exactly that entry, and the others keep their relative order; any other index changes nothing |
| TransportScreen.AddThenDeleteLast | Amsterdam/frames/transport_frame.py:48-92 | deleting the entry just added restores the document |
| TransportScreen.SaveAll | Amsterdam/frames/transport_frame.py:130-160 | both legs are replaced wholesale; the local transports and the other sections are kept |
| TransportScreen.SaveAllIdempotent | Amsterdam/frames/transport_frame.py:130-160 | saving the stored legs changes nothing, and saving twice equals saving once |
| BudgetScreen.BuildExpense | Amsterdam/frames/budget_frame.py:52-73 | refused iff the category is empty (reported first) or the amount is <= 0; otherwise the date defaults to "Non specifie", the participant to "Groupe", and the description is stripped; the category and the positive amount are copied |
| BudgetScreen.AddExpense | Amsterdam/frames/budget_frame.py:52-75 | a refused form writes nothing; an accepted one is appended under the next id, max(ids, default 0) + 1, with the planned budget and the currency unchanged |
| BudgetScreen.Remaining | Amsterdam/frames/budget_frame.py:223-232 | the planned amount when there are no expenses; with no negative amount, at most the planned amount, and at most the planned amount less any one expense |
| BudgetScreen.AddExpenseRaisesTotals | Amsterdam/frames/budget_frame.py:67-75 | an accepted expense raises the total and its category's spend by its amount, and lowers the remaining budget by it |
| BudgetScreen.DocumentStatus | Amsterdam/frames/budget_frame.py:223-241 | the stored document shows danger iff the total spend exceeds the planned amount, success iff what is left is non-negative and at least a fifth of the planned amount; no expenses and a non-negative plan give success |
| BudgetScreen.Status | Amsterdam/frames/budget_frame.py:236-241 | danger iff remaining < 0, warning iff 0 <= remaining < 0.2 x planned, success otherwise; the three are exclusive and exhaustive |
| BudgetScreen.StatusMonotone | Amsterdam/frames/budget_frame.py:236-241 | less remaining budget never gives a milder status |
| BudgetScreen.AddExpenseNeverEasesStatus | Amsterdam/frames/budget_frame.py:223-241 | the remaining budget is planned minus total, so an accepted expense never makes the status milder |
| Defaults.ActivitesNumbered | Amsterdam/config.py:147-178 | three default activities, numbered 1, 2, 3 |
| Defaults.DepensesNumbered | Amsterdam/config.py:179-192 | a planned budget of 500 and one default expense, id 1, on "Transport", amount 150 |
| Defaults.ParticipantsNumbered | Amsterdam/config.py:243-266 | two default participants, numbered 1, 2 |
| Defaults.ChecklistNumbered | Amsterdam/config.py:267-280 | twelve default checklist items, numbered 1..12, none checked |
| Lifecycle.DefaultIds | Amsterdam/config.py:147-280 | in the default document the activities are numbered 1..3, the participants 1..2 and the checklist 1..12, and the document is well keyed |
| Lifecycle.DefaultBudgetShape | Amsterdam/config.py:179-192 | the default document's budget is 500 with one expense, id 1, "Transport", 150 |
| Lifecycle.DefaultSpend | Amsterdam/data_manager.py:303-328 | on the default document the total spend is 150 and the per-category map is {"Transport": 150} |
| Lifecycle.DefaultStatus | Amsterdam/frames/budget_frame.py:223-241 | on the default document 350 of 500 is left, at least a fifth, so the status is success |
| Lifecycle.DefaultProgress | Amsterdam/config.py:267-280 | nothing on the default checklist is checked: progress (0, 12, 0) |
| Lifecycle.AddAfterReset | Amsterdam/config.py:147-178 | adding an activity right after a reset returns id 4 |
| Lifecycle.CanalTourScenario | Amsterdam/data_manager.py:146-213 | reset, add "Canal tour" (id 4, four activities), delete id 1 (true; three activities remain, numbered 2, 3, 4) |
| Lifecycle.IdReusedAfterDeletingMax | Amsterdam/data_manager.py:159 | after deleting the largest id, the next add issues that id again |

## Left out

- Loading and saving the JSON file: the directory creation, corruption fallback, `last_modified` stamp, logging, and the load when the module is imported. Each write is modelled as the document it leaves in memory. `reset_to_defaults` is "install the default document".
- A document missing a whole section: every section is modelled as present. Missing fields are modelled only where the store reads a default: ids, expense category and amount, checked flag.
- Non-integer ids a hand-edited file might hold: ids are integers.
- Plain getters (`get_activites`, `get_hotel`, ...): they are field reads of the document.
- Checklist.GetProgress: the percentage is the exact floor of checked*100/total. The source computes `int((checked / total) * 100)` in floating point, which can be one less (29 of 100 checked gives 28).
- Expenses.ByCategory: amounts are exact reals. Floating-point rounding of sums and of the 20 % threshold in BudgetScreen.Status is not modelled.
- Parsing numbers typed into forms (budget, amount, price): the model takes the parsed value; a parse failure writes nothing.
- Date validation and formatting, currency formatting, days until departure: these depend on the clock or are presentation only.
- The Tkinter screens: widgets, message boxes and confirmation dialogs. Only what runs after a confirmation is modelled. Also left out: the tree-row-to-id and row-to-index mapping, the empty-selection warning, display sorting and grouping, and the per-category bars.
- The activities, participants and hotel screens and `main.py`: they copy form fields into the store calls modelled above.

=== FILE: budget_screen.dfy ===
/**
 * The budget screen's rules on top of the store: how an expense is built
 * from the form (guards and field defaults), and how the remaining budget
 * is computed and classified.
 */
module BudgetScreen {
  import opened Wrappers
  import opened Records
  import opened Collection
  import opened Text
  import Expenses
  import Store

  /** The expense form once its amount has been read as a number. */
  datatype ExpenseForm = ExpenseForm(
    date: string, categorie: string, montant: real, description: string, participant: string)

  datatype FormError = MissingCategory | NonPositiveAmount

  const UnspecifiedDate: string := "Non specifie"
  const WholeGroup: string := "Groupe"

  /**
   * The guards and defaults of `add_expense`: a category is required (checked
   * first), the amount must be positive; an empty date reads "Non specifie",
   * an empty participant "Groupe", and the description is stripped.
   */
  function BuildExpense(f: ExpenseForm): (r: Result<Expense, FormError>)
    ensures |f.categorie| == 0 ==> r == Err(MissingCategory)
    ensures |f.categorie| > 0 && f.montant <= 0.0 ==> r == Err(NonPositiveAmount)
    ensures r.Ok? <==> |f.categorie| > 0 && f.montant > 0.0
    ensures r.Ok? ==>
      && CategoryOf(r.value) == f.categorie && r.value.categorie.Some?
      && AmountOf(r.value) == f.montant && r.value.montant.Some?
      && r.value.description == Strip(f.description)
      && (|f.date| > 0 ==> r.value.date == f.date)
      && (|f.date| == 0 ==> r.value.date == UnspecifiedDate)
      && (|f.participant| > 0 ==> r.value.participant == f.participant)
      && (|f.participant| == 0 ==> r.value.participant == WholeGroup)
  {
    if |f.categorie| == 0 then Err(MissingCategory)
    else if f.montant <= 0.0 then Err(NonPositiveAmount)
    else Ok(Expense(
      if |f.date| > 0 then f.date else UnspecifiedDate,
      Some(f.categorie),
      Some(f.montant),
      Strip(f.description),
      if |f.participant| > 0 then f.participant else WholeGroup))
  }

  /** `add_expense`: a built expense is stored under a fresh id; a refused form writes nothing. */
  function AddExpense(d: Document, f: ExpenseForm): (r: Result<(Document, int), FormError>)
    ensures r.Ok? <==> BuildExpense(f).Ok?
    ensures r.Err? ==> r.error == BuildExpense(f).error
    ensures r.Ok? ==>
      && r.value.0.budget.depenses == d.budget.depenses + [Entry(Some(r.value.1), BuildExpense(f).value)]
      && r.value.1 == NextId(d.budget.depenses)
      && !HasId(d.budget.depenses, r.value.1)
      && r.value.0.budget.budgetPrevu == d.budget.budgetPrevu
      && r.value.0.budget.devise == d.budget.devise
      && r.value.0.(budget := d.budget) == d
  {
    match BuildExpense(f)
    case Err(e) => Err(e)
    case Ok(e) => Ok(Store.AddDepense(d, Entry(None, e)))
  }

  /**
   * An accepted expense raises the total spend, and the spend of its
   * category, by exactly its amount, and the remaining budget drops by it.
   */
  lemma AddExpenseRaisesTotals(d: Document, f: ExpenseForm)
    requires AddExpense(d, f).Ok?
    ensures var d' := AddExpense(d, f).value.0;
      && Expenses.Total(d'.budget.depenses) == Expenses.Total(d.budget.depenses) + f.montant
      && f.categorie in Expenses.ByCategory(d'.budget.depenses)
      && Expenses.ByCategory(d'.budget.depenses)[f.categorie]
           == Expenses.CategorySum(d.budget.depenses, f.categorie) + f.montant
      && Remaining(d') == Remaining(d) - f.montant
  {
    var e := BuildExpense(f).value;
    var (d', id) := AddExpense(d, f).value;
    var xs := d.budget.depenses;
    var last := Entry(Some(id), e);
    assert d'.budget.depenses == xs + [last];
    Expenses.TotalAppend(xs, [last]);
    assert [last][1..] == [];
    Expenses.CategorySumAppend(xs, [last], f.categorie);
    assert CategoryOf(d'.budget.depenses[|xs|].body) == f.categorie;
  }

  /** The colour of the remaining-budget figure. */
  datatype BudgetStatus = Danger | Warning | Success

  /** The remaining budget: planned amount minus total spend. */
  function Remaining(d: Document): (r: real)
    ensures |d.budget.depenses| == 0 ==> r == d.budget.budgetPrevu
    ensures Expenses.NonNegative(d.budget.depenses) ==> r <= d.budget.budgetPrevu
    ensures Expenses.NonNegative(d.budget.depenses) ==>
      forall i :: 0 <= i < |d.budget.depenses| ==> r <= d.budget.budgetPrevu - AmountOf(d.budget.depenses[i].body)
  {
    d.budget.budgetPrevu - Expenses.Total(d.budget.depenses)
  }

  /**
   * The classification of `refresh_budget`: overspent is danger, less than a
   * fifth of the planned amount left is a warning, anything else is fine.
   */
  function Status(budgetPrevu: real, restant: real): (r: BudgetStatus)
    ensures r == Danger <==> restant < 0.0
    ensures r == Warning <==> 0.0 <= restant < budgetPrevu * 0.2
    ensures r == Success <==> 0.0 <= restant && budgetPrevu * 0.2 <= restant
  {
    if restant < 0.0 then Danger
    else if restant < budgetPrevu * 0.2 then Warning
    else Success
  }

  /** The status `refresh_budget` shows for the stored document. */
  function DocumentStatus(d: Document): (r: BudgetStatus)
    ensures r == Danger <==> Expenses.Total(d.budget.depenses) > d.budget.budgetPrevu
    ensures r == Success <==> Remaining(d) >= 0.0 && Remaining(d) >= d.budget.budgetPrevu * 0.2
    ensures |d.budget.depenses| == 0 && d.budget.budgetPrevu >= 0.0 ==> r == Success
  {
    Status(d.budget.budgetPrevu, Remaining(d))
  }

  /** The severity order of the statuses. */
  function Severity(s: BudgetStatus): nat {
    match s
    case Success => 0
    case Warning => 1
    case Danger => 2
  }

  /** Less budget left never gives a milder status. */
  lemma StatusMonotone(budgetPrevu: real, restant: real, less: real)
    requires less <= restant
    ensures Severity(Status(budgetPrevu, restant)) <= Severity(Status(budgetPrevu, less))
  {
  }

  /** Hence an accepted expense never makes the budget status milder. */
  lemma AddExpenseNeverEasesStatus(d: Document, f: ExpenseForm)
    requires AddExpense(d, f).Ok?
    ensures Severity(DocumentStatus(d)) <= Severity(DocumentStatus(AddExpense(d, f).value.0))
  {
    AddExpenseRaisesTotals(d, f);
    var d' := AddExpense(d, f).value.0;
    StatusMonotone(d.budget.budgetPrevu, Remaining(d), Remaining(d'));
  }
}

=== FILE: checklist.dfy ===
/**
 * The checklist section of the store: adding an item, toggling its checked
 * flag, and the progress summary (checked count, total, whole percentage).
 */
module Checklist {
  import opened Wrappers
  import opened Records
  import opened Collection

  type Items = seq<Entry<ChecklistItem>>

  /**
   * `add_checklist_item`: appended under a fresh id like any collection add;
   * a payload without a checked flag is stored unchecked, a given flag is kept.
   */
  function AddItem(cl: Items, payload: Entry<ChecklistItem>): (r: (Items, int))
    ensures |r.0| == |cl| + 1 && r.0[..|cl|] == cl
    ensures r.1 == NextId(cl)
    ensures !HasId(cl, r.1) && r.0[|cl|].id == Some(r.1)
    ensures r.0[|cl|].body.item == payload.body.item
    ensures r.0[|cl|].body.categorie == payload.body.categorie
    ensures r.0[|cl|].body.checked.Some?
    ensures IsChecked(r.0[|cl|].body) == IsChecked(payload.body)
    ensures payload.body.checked.Some? ==> r.0[|cl|].body == payload.body
  {
    var stored := payload.(body := payload.body.(checked := Some(payload.body.checked.GetOr(false))));
    var (items, id) := Add(cl, stored);
    assert items[..|cl|] == cl;
    (items, id)
  }

  /**
   * `toggle_checklist_item`: flips the checked flag of the first item carrying
   * `k` (a missing flag reads as unchecked) and returns the new value; an
   * unknown id changes nothing and returns false.
   */
  function Toggle(cl: Items, k: int): (r: (Items, bool))
    ensures !HasId(cl, k) ==> r == (cl, false)
    ensures HasId(cl, k) ==>
      exists i :: 0 <= i < |cl| && cl[i].id == Some(k)
        && (forall j :: 0 <= j < i ==> cl[j].id != Some(k))
        && r.1 == !IsChecked(cl[i].body)
        && r.0 == cl[i := WithChecked(cl[i], r.1)]
    ensures |r.0| == |cl|
    ensures forall j :: 0 <= j < |cl| ==>
      r.0[j].id == cl[j].id && r.0[j].body.item == cl[j].body.item
      && r.0[j].body.categorie == cl[j].body.categorie
  {
    match FindIndex(cl, k)
    case None => (cl, false)
    case Some(i) =>
      var v := !IsChecked(cl[i].body);
      (cl[i := WithChecked(cl[i], v)], v)
  }

  /** The first match of an id depends on the ids alone. */
  lemma FindIndexSameIds(a: Items, b: Items, k: int)
    requires |a| == |b|
    requires forall j :: 0 <= j < |a| ==> a[j].id == b[j].id
    ensures FindIndex(a, k) == FindIndex(b, k)
  {
  }

  /**
   * Toggling the same id twice: the second call returns the original state,
   * every item reads as checked exactly when it did before, and the list is
   * restored outright unless the item had no stored flag (it now holds false).
   */
  lemma ToggleTwice(cl: Items, k: int)
    requires HasId(cl, k)
    ensures var i := FindIndex(cl, k).value;
      var (once, v1) := Toggle(cl, k);
      var (twice, v2) := Toggle(once, k);
      && v1 == !IsChecked(cl[i].body)
      && v2 == IsChecked(cl[i].body)
      && twice == cl[i := WithChecked(cl[i], IsChecked(cl[i].body))]
      && (cl[i].body.checked.Some? ==> twice == cl)
  {
    var i := FindIndex(cl, k).value;
    var (once, v1) := Toggle(cl, k);
    FindIndexSameIds(cl, once, k);
    assert once == cl[i := WithChecked(cl[i], v1)];
  }

  /** The number of items that read as checked. */
  function CountChecked(cl: Items): (n: nat)
    ensures n <= |cl|
    ensures n == |cl| <==> forall i :: 0 <= i < |cl| ==> IsChecked(cl[i].body)
    ensures n == 0 <==> forall i :: 0 <= i < |cl| ==> !IsChecked(cl[i].body)
    decreases |cl|
  {
    if |cl| == 0 then 0
    else
      assert forall i :: 1 <= i < |cl| ==> cl[i] == cl[1..][i - 1];
      (if IsChecked(cl[0].body) then 1 else 0) + CountChecked(cl[1..])
  }

  lemma {:induction false} CountCheckedAppend(a: Items, b: Items)
    ensures CountChecked(a + b) == CountChecked(a) + CountChecked(b)
    decreases |a|
  {
    if |a| == 0 {
      assert a + b == b;
    } else {
      assert (a + b)[1..] == a[1..] + b;
      CountCheckedAppend(a[1..], b);
    }
  }

  /** `get_checklist_progress`'s triple. */
  datatype Progress = Progress(checked: nat, total: nat, percentage: nat)

  /** Multiplying by a positive number keeps the order. */
  lemma MulMono(a: int, b: int, t: int)
    requires 0 < t && a <= b
    ensures a * t <= b * t
    ensures a < b ==> a * t < b * t
  {
    var d := b - a;
    assert b * t == a * t + d * t;
    if d > 0 {
      assert d * t >= t;
    }
  }

  /** Integer division brackets the dividend between two consecutive multiples. */
  lemma DivBrackets(n: int, t: int)
    requires 0 <= n && 0 < t
    ensures (n / t) * t <= n < (n / t + 1) * t
  {
    var p := n / t;
    assert n == p * t + n % t;
    assert (p + 1) * t == p * t + t;
  }

  /** A quotient bracketed below `k * t` or at most it is below `k` or at most `k`; one bracketed above `k * t` is at least `k`. */
  lemma QuotientVersus(p: int, n: int, t: int, k: int)
    requires 0 < t && p * t <= n < (p + 1) * t
    ensures n < k * t ==> p < k
    ensures n <= k * t ==> p <= k
    ensures k * t <= n ==> k <= p
  {
    if k <= p { MulMono(k, p, t); }
    if p + 1 <= k { MulMono(p + 1, k, t); }
  }

  /** `percentage` is the whole part of `checked / total * 100` for 0 <= checked <= total. */
  lemma PercentageBounds(c: nat, t: nat, p: int)
    requires 0 < t && c <= t && p == (c * 100) / t
    ensures 0 <= p <= 100
    ensures p == 100 <==> c == t
    ensures p * t <= c * 100 < (p + 1) * t
  {
    var n := c * 100;
    DivBrackets(n, t);
    MulMono(c, t, 100);
    QuotientVersus(p, n, t, 100);
  }

  /**
   * `get_checklist_progress`: (0, 0, 0) for an empty checklist; otherwise the
   * checked count, the length, and the whole percentage, which is 100 exactly
   * when every item is checked and 0 when none is.
   */
  function GetProgress(cl: Items): (p: Progress)
    ensures |cl| == 0 ==> p == Progress(0, 0, 0)
    ensures |cl| > 0 ==> p.total == |cl| && p.checked == CountChecked(cl)
    ensures p.checked <= p.total && p.percentage <= 100
    ensures |cl| > 0 ==> p.percentage * p.total <= p.checked * 100 < (p.percentage + 1) * p.total
    ensures |cl| > 0 ==> (p.percentage == 100 <==> forall i :: 0 <= i < |cl| ==> IsChecked(cl[i].body))
    ensures (forall i :: 0 <= i < |cl| ==> !IsChecked(cl[i].body)) ==> p.percentage == 0
  {
    if |cl| == 0 then Progress(0, 0, 0)
    else
      var c := CountChecked(cl);
      var pct := (c * 100) / |cl|;
      PercentageBounds(c, |cl|, pct);
      Progress(c, |cl|, pct)
  }
}

=== FILE: checklist_screen.dfy ===
/**
 * The checklist screen's rules on top of the store: the guard of the add
 * form, and the bulk actions "check all", "uncheck all" and "delete checked"
 * (what runs once the user has confirmed), which are sequences of toggles
 * and deletes over the list as it stands.
 *
 * The screen reads each item's id with a plain key lookup: an item without
 * an id raises there and ends the action, and the writes made before it
 * stay in the store. A bulk result therefore carries an `aborted` flag.
 */
module ChecklistScreen {
  import opened Wrappers
  import opened Records
  import opened Collection
  import opened Text
  import Checklist
  import Store

  datatype FormError = EmptyItem | MissingCategory

  /**
   * `add_item`: the typed text, stripped, must not be empty and a category
   * must be chosen; the item is then added unchecked under a fresh id.
   */
  function AddItem(d: Document, text: string, categorie: string): (r: Result<(Document, int), FormError>)
    ensures r.Err? <==> |Strip(text)| == 0 || |categorie| == 0
    ensures |Strip(text)| == 0 ==> r == Err(EmptyItem)
    ensures |Strip(text)| > 0 && |categorie| == 0 ==> r == Err(MissingCategory)
    ensures r.Ok? ==>
      && r.value.0.checklist == d.checklist + [Entry(Some(r.value.1), ChecklistItem(Strip(text), categorie, Some(false)))]
      && r.value.1 == NextId(d.checklist)
      && !HasId(d.checklist, r.value.1)
      && r.value.0.(checklist := d.checklist) == d
  {
    var t := Strip(text);
    if |t| == 0 then Err(EmptyItem)
    else if |categorie| == 0 then Err(MissingCategory)
    else
      var (d', id) := Store.AddChecklistItem(d, Entry(None, ChecklistItem(t, categorie, Some(false))));
      assert d'.checklist == d'.checklist[..|d.checklist|] + [d'.checklist[|d.checklist|]];
      Ok((d', id))
  }

  /** The list keeps its length, order, ids, texts and categories; only checked flags may differ. */
  predicate SameItems(a: Checklist.Items, b: Checklist.Items) {
    && |a| == |b|
    && forall j :: 0 <= j < |a| ==>
         a[j].id == b[j].id && a[j].body.item == b[j].body.item && a[j].body.categorie == b[j].body.categorie
  }

  /**
   * The loop of `check_all` from position `i` on: every item that does not read
   * as checked is toggled by its id; already checked items are skipped.
   */
  function CheckAllFrom(cl: Checklist.Items, i: nat): (r: (Checklist.Items, bool))
    requires i <= |cl|
    ensures SameItems(r.0, cl)
    ensures r.1 <==> exists j :: i <= j < |cl| && cl[j].id.None? && !IsChecked(cl[j].body)
    decreases |cl| - i
  {
    if i == |cl| then (cl, false)
    else if IsChecked(cl[i].body) then CheckAllFrom(cl, i + 1)
    else if cl[i].id.None? then (cl, true)
    else CheckAllFrom(Checklist.Toggle(cl, cl[i].id.value).0, i + 1)
  }

  /** The loop of `uncheck_all` from position `i` on: every checked item is toggled by its id. */
  function UncheckAllFrom(cl: Checklist.Items, i: nat): (r: (Checklist.Items, bool))
    requires i <= |cl|
    ensures SameItems(r.0, cl)
    ensures r.1 <==> exists j :: i <= j < |cl| && cl[j].id.None? && IsChecked(cl[j].body)
    decreases |cl| - i
  {
    if i == |cl| then (cl, false)
    else if !IsChecked(cl[i].body) then UncheckAllFrom(cl, i + 1)
    else if cl[i].id.None? then (cl, true)
    else UncheckAllFrom(Checklist.Toggle(cl, cl[i].id.value).0, i + 1)
  }

  /** The outcome of a bulk action: the document, and whether it stopped on an item without id. */
  datatype Bulk = Bulk(doc: Document, aborted: bool)

  function CheckAll(d: Document): (r: Bulk)
    ensures SameItems(r.doc.checklist, d.checklist)
    ensures r.aborted <==> exists j :: 0 <= j < |d.checklist| && d.checklist[j].id.None? && !IsChecked(d.checklist[j].body)
    ensures r.doc.(checklist := d.checklist) == d
  {
    var (cl, aborted) := CheckAllFrom(d.checklist, 0);
    Bulk(d.(checklist := cl), aborted)
  }

  function UncheckAll(d: Document): (r: Bulk)
    ensures SameItems(r.doc.checklist, d.checklist)
    ensures r.aborted <==> exists j :: 0 <= j < |d.checklist| && d.checklist[j].id.None? && IsChecked(d.checklist[j].body)
    ensures r.doc.(checklist := d.checklist) == d
  {
    var (cl, aborted) := UncheckAllFrom(d.checklist, 0);
    Bulk(d.(checklist := cl), aborted)
  }

  /**
   * An item that ends "check all" (`target` true: it has no id and does not
   * read as checked) or "uncheck all" (`target` false: no id, reads as checked).
   */
  predicate Blocks(e: Entry<ChecklistItem>, target: bool) {
    e.id.None? && IsChecked(e.body) != target
  }

  /** Some item at a position in `lo..hi`, both included, blocks the action. */
  predicate BlockedIn(cl: Checklist.Items, lo: nat, hi: int, target: bool)
    requires hi < |cl|
  {
    exists k :: lo <= k <= hi && Blocks(cl[k], target)
  }

  /** Under distinct ids, toggling an item's own id flips that item and nothing else. */
  lemma ToggleOwnId(cl: Checklist.Items, i: int)
    requires UniqueIds(cl) && 0 <= i < |cl| && cl[i].id.Some?
    ensures Checklist.Toggle(cl, cl[i].id.value).0 == cl[i := WithChecked(cl[i], !IsChecked(cl[i].body))]
    ensures UniqueIds(Checklist.Toggle(cl, cl[i].id.value).0)
  {
    FindIndexUnique(cl, i);
  }

  /**
   * Skipping a non-blocking item at `i`: blocking in `i..j` of one list is
   * blocking in `i+1..j` of any list that agrees with it there.
   */
  lemma BlockedInShift(cl: Checklist.Items, next: Checklist.Items, i: nat, j: nat, target: bool)
    requires i < j < |cl| == |next|
    requires !Blocks(cl[i], target)
    requires forall k :: i < k <= j ==> next[k] == cl[k]
    ensures BlockedIn(next, i + 1, j, target) <==> BlockedIn(cl, i, j, target)
  {
    if BlockedIn(cl, i, j, target) {
      var k :| i <= k <= j && Blocks(cl[k], target);
      assert Blocks(next[k], target);
    }
  }

  /**
   * What the item at `j` becomes once a bulk action setting every flag to
   * `target` has run from position `i`: it is left as it was if it lies before
   * `i`, already reads as `target`, or lies at or after the first blocking
   * item; otherwise its flag is set to `target`.
   */
  function AfterBulk(cl: Checklist.Items, i: nat, j: nat, target: bool): Entry<ChecklistItem>
    requires j < |cl|
  {
    if j < i || IsChecked(cl[j].body) == target || BlockedIn(cl, i, j, target) then cl[j]
    else WithChecked(cl[j], target)
  }

  /** Moving past a non-blocking item at `i` that ends as `AfterBulk` says leaves `AfterBulk` unchanged further on. */
  lemma AfterBulkShift(cl: Checklist.Items, next: Checklist.Items, i: nat, j: nat, target: bool)
    requires i < |cl| == |next| && j < |cl|
    requires !Blocks(cl[i], target)
    requires next == cl[i := AfterBulk(cl, i, i, target)]
    ensures AfterBulk(next, i + 1, j, target) == AfterBulk(cl, i, j, target)
  {
    if j > i {
      BlockedInShift(cl, next, i, j, target);
    }
  }

  /** "Check all" from position `i` under distinct ids, at one position `j`. */
  lemma {:induction false} CheckAllFromAt(cl: Checklist.Items, i: nat, j: nat)
    requires i <= |cl| && j < |cl| && UniqueIds(cl)
    ensures CheckAllFrom(cl, i).0[j] == AfterBulk(cl, i, j, true)
    decreases |cl| - i
  {
    if i < |cl| {
      if IsChecked(cl[i].body) {
        assert cl == cl[i := AfterBulk(cl, i, i, true)];
        CheckAllFromAt(cl, i + 1, j);
        AfterBulkShift(cl, cl, i, j, true);
      } else if cl[i].id.None? {
        assert Blocks(cl[i], true);
        assert j >= i ==> BlockedIn(cl, i, j, true);
      } else {
        ToggleOwnId(cl, i);
        var next := Checklist.Toggle(cl, cl[i].id.value).0;
        assert next == cl[i := AfterBulk(cl, i, i, true)];
        CheckAllFromAt(next, i + 1, j);
        AfterBulkShift(cl, next, i, j, true);
      }
    }
  }

  /** "Uncheck all" from position `i` under distinct ids, at one position `j`. */
  lemma {:induction false} UncheckAllFromAt(cl: Checklist.Items, i: nat, j: nat)
    requires i <= |cl| && j < |cl| && UniqueIds(cl)
    ensures UncheckAllFrom(cl, i).0[j] == AfterBulk(cl, i, j, false)
    decreases |cl| - i
  {
    if i < |cl| {
      if !IsChecked(cl[i].body) {
        assert cl == cl[i := AfterBulk(cl, i, i, false)];
        UncheckAllFromAt(cl, i + 1, j);
        AfterBulkShift(cl, cl, i, j, false);
      } else if cl[i].id.None? {
        assert Blocks(cl[i], false);
        assert j >= i ==> BlockedIn(cl, i, j, false);
      } else {
        ToggleOwnId(cl, i);
        var next := Checklist.Toggle(cl, cl[i].id.value).0;
        assert next == cl[i := AfterBulk(cl, i, i, false)];
        UncheckAllFromAt(next, i + 1, j);
        AfterBulkShift(cl, next, i, j, false);
      }
    }
  }

  /**
   * "Check all" from position `i` under distinct ids: the items before `i`,
   * those already checked, and those at or after the first blocking item are
   * left as they were; every other item ends checked. So the toggles made
   * before the action stops stay in the list.
   */
  lemma CheckAllFromStops(cl: Checklist.Items, i: nat)
    requires i <= |cl| && UniqueIds(cl)
    ensures forall j :: 0 <= j < |cl| ==>
      CheckAllFrom(cl, i).0[j] ==
        (if j < i || IsChecked(cl[j].body) || BlockedIn(cl, i, j, true) then cl[j] else WithChecked(cl[j], true))
  {
    forall j | 0 <= j < |cl|
      ensures CheckAllFrom(cl, i).0[j] ==
        (if j < i || IsChecked(cl[j].body) || BlockedIn(cl, i, j, true) then cl[j] else WithChecked(cl[j], true))
    {
      CheckAllFromAt(cl, i, j);
    }
  }

  /** "Uncheck all" from position `i` under distinct ids, mirroring `CheckAllFromStops`. */
  lemma UncheckAllFromStops(cl: Checklist.Items, i: nat)
    requires i <= |cl| && UniqueIds(cl)
    ensures forall j :: 0 <= j < |cl| ==>
      UncheckAllFrom(cl, i).0[j] ==
        (if j < i || !IsChecked(cl[j].body) || BlockedIn(cl, i, j, false) then cl[j] else WithChecked(cl[j], false))
  {
    forall j | 0 <= j < |cl|
      ensures UncheckAllFrom(cl, i).0[j] ==
        (if j < i || !IsChecked(cl[j].body) || BlockedIn(cl, i, j, false) then cl[j] else WithChecked(cl[j], false))
    {
      UncheckAllFromAt(cl, i, j);
    }
  }

  /** On a well-keyed checklist nothing blocks "check all": it completes from any position. */
  lemma CheckAllFromWellKeyed(cl: Checklist.Items, i: nat)
    requires i <= |cl| && WellKeyed(cl)
    ensures !CheckAllFrom(cl, i).1
    ensures forall j :: 0 <= j < |cl| ==>
      CheckAllFrom(cl, i).0[j] == (if j < i || IsChecked(cl[j].body) then cl[j] else WithChecked(cl[j], true))
  {
    CheckAllFromStops(cl, i);
    assert forall k :: 0 <= k < |cl| ==> !Blocks(cl[k], true);
  }

  /** On a well-keyed checklist nothing blocks "uncheck all": it completes from any position. */
  lemma UncheckAllFromWellKeyed(cl: Checklist.Items, i: nat)
    requires i <= |cl| && WellKeyed(cl)
    ensures !UncheckAllFrom(cl, i).1
    ensures forall j :: 0 <= j < |cl| ==>
      UncheckAllFrom(cl, i).0[j] == (if j < i || !IsChecked(cl[j].body) then cl[j] else WithChecked(cl[j], false))
  {
    UncheckAllFromStops(cl, i);
    assert forall k :: 0 <= k < |cl| ==> !Blocks(cl[k], false);
  }

  /**
   * "Check all" under distinct ids (items without id allowed): every unchecked
   * item before the first blocking item ends checked, and those writes stay
   * even when the action stops; from the blocking item on nothing changes.
   */
  lemma CheckAllKeepsEarlierWrites(d: Document)
    requires UniqueIds(d.checklist)
    ensures forall j :: 0 <= j < |d.checklist| ==>
      CheckAll(d).doc.checklist[j] ==
        (if IsChecked(d.checklist[j].body) || BlockedIn(d.checklist, 0, j, true)
         then d.checklist[j] else WithChecked(d.checklist[j], true))
  {
    CheckAllFromStops(d.checklist, 0);
  }

  /** "Uncheck all" under distinct ids, mirroring `CheckAllKeepsEarlierWrites`. */
  lemma UncheckAllKeepsEarlierWrites(d: Document)
    requires UniqueIds(d.checklist)
    ensures forall j :: 0 <= j < |d.checklist| ==>
      UncheckAll(d).doc.checklist[j] ==
        (if !IsChecked(d.checklist[j].body) || BlockedIn(d.checklist, 0, j, false)
         then d.checklist[j] else WithChecked(d.checklist[j], false))
  {
    UncheckAllFromStops(d.checklist, 0);
  }

  /**
   * With well-keyed ids, "check all" completes and leaves every item checked;
   * an item that was already checked is left exactly as it was.
   */
  lemma CheckAllChecksEverything(d: Document)
    requires WellKeyed(d.checklist)
    ensures !CheckAll(d).aborted
    ensures forall j :: 0 <= j < |d.checklist| ==> IsChecked(CheckAll(d).doc.checklist[j].body)
    ensures forall j :: 0 <= j < |d.checklist| && IsChecked(d.checklist[j].body) ==>
      CheckAll(d).doc.checklist[j] == d.checklist[j]
  {
    CheckAllFromWellKeyed(d.checklist, 0);
  }

  /**
   * With well-keyed ids, "uncheck all" completes and leaves no item checked;
   * an item that was not checked is left exactly as it was.
   */
  lemma UncheckAllClearsEverything(d: Document)
    requires WellKeyed(d.checklist)
    ensures !UncheckAll(d).aborted
    ensures forall j :: 0 <= j < |d.checklist| ==> !IsChecked(UncheckAll(d).doc.checklist[j].body)
    ensures forall j :: 0 <= j < |d.checklist| && !IsChecked(d.checklist[j].body) ==>
      UncheckAll(d).doc.checklist[j] == d.checklist[j]
  {
    UncheckAllFromWellKeyed(d.checklist, 0);
  }

  /**
   * Distinct ids are needed: two unchecked items sharing an id end up both
   * unchecked after "check all", since each toggle hits the first of them.
   */
  lemma CheckAllNeedsDistinctIds()
    ensures var item := ChecklistItem("Passeport", "Documents", Some(false));
      var cl := [Entry(Some(1), item), Entry(Some(1), item)];
      var r := CheckAllFrom(cl, 0);
      !r.1 && !IsChecked(r.0[0].body) && !IsChecked(r.0[1].body)
  {
    var item := ChecklistItem("Passeport", "Documents", Some(false));
    var cl := [Entry(Some(1), item), Entry(Some(1), item)];
    var once := Checklist.Toggle(cl, 1).0;
    assert FindIndex(cl, 1) == Some(0);
    assert once == [Entry(Some(1), item.(checked := Some(true))), Entry(Some(1), item)];
    assert FindIndex(once, 1) == Some(0);
    var twice := Checklist.Toggle(once, 1).0;
    assert twice == [Entry(Some(1), item.(checked := Some(false))), Entry(Some(1), item)];
    assert CheckAllFrom(cl, 0) == CheckAllFrom(once, 1);
    assert CheckAllFrom(once, 1) == CheckAllFrom(twice, 2);
  }

  // ---- delete checked ----

  /** The items that read as checked, in order: the snapshot `delete_checked` takes first. */
  function CheckedItems(cl: Checklist.Items): (r: Checklist.Items)
    ensures forall j :: 0 <= j < |r| ==> r[j] in cl && IsChecked(r[j].body)
    ensures forall j :: 0 <= j < |cl| && IsChecked(cl[j].body) ==> cl[j] in r
    decreases |cl|
  {
    if |cl| == 0 then []
    else
      assert forall j :: 1 <= j < |cl| ==> cl[j] == cl[1..][j - 1];
      (if IsChecked(cl[0].body) then [cl[0]] else []) + CheckedItems(cl[1..])
  }

  /** The items that do not read as checked, in order. */
  function UncheckedItems(cl: Checklist.Items): (r: Checklist.Items)
    ensures forall j :: 0 <= j < |r| ==> r[j] in cl && !IsChecked(r[j].body)
    ensures forall j :: 0 <= j < |cl| && !IsChecked(cl[j].body) ==> cl[j] in r
    decreases |cl|
  {
    if |cl| == 0 then []
    else
      assert forall j :: 1 <= j < |cl| ==> cl[j] == cl[1..][j - 1];
      (if IsChecked(cl[0].body) then [] else [cl[0]]) + UncheckedItems(cl[1..])
  }

  /**
   * The loop of `delete_checked`: each snapshot item's id is deleted in turn.
   * It stops at the first snapshot item without an id, so it aborts exactly
   * when one lacks an id; it only ever drops items.
   */
  function DeleteEach(cl: Checklist.Items, snapshot: Checklist.Items): (r: (Checklist.Items, bool))
    ensures r.1 <==> !HasIds(snapshot)
    ensures |r.0| <= |cl|
    ensures forall j :: 0 <= j < |r.0| ==> r.0[j] in cl
    decreases |snapshot|
  {
    if |snapshot| == 0 then (cl, false)
    else if snapshot[0].id.None? then (cl, true)
    else
      assert forall j :: 1 <= j < |snapshot| ==> snapshot[j] == snapshot[1..][j - 1];
      var next := Delete(cl, snapshot[0].id.value).0;
      assert forall j :: 0 <= j < |next| ==> next[j] in cl;
      DeleteEach(next, snapshot[1..])
  }

  /**
   * `delete_checked`: with nothing checked it only informs the user and changes
   * nothing. Otherwise it stops exactly when a checked item lacks an id, and
   * it only ever drops items.
   */
  function DeleteChecked(d: Document): (r: Bulk)
    ensures r.doc.(checklist := d.checklist) == d
    ensures (forall j :: 0 <= j < |d.checklist| ==> !IsChecked(d.checklist[j].body)) ==> r == Bulk(d, false)
    ensures r.aborted <==> exists j :: 0 <= j < |d.checklist| && d.checklist[j].id.None? && IsChecked(d.checklist[j].body)
    ensures |r.doc.checklist| <= |d.checklist|
    ensures forall j :: 0 <= j < |r.doc.checklist| ==> r.doc.checklist[j] in d.checklist
  {
    var snapshot := CheckedItems(d.checklist);
    assert !HasIds(snapshot) ==> exists j :: 0 <= j < |d.checklist| && d.checklist[j].id.None? && IsChecked(d.checklist[j].body) by {
      if !HasIds(snapshot) {
        var m :| 0 <= m < |snapshot| && snapshot[m].id.None?;
        assert snapshot[m] in d.checklist;
      }
    }
    if |snapshot| == 0 then Bulk(d, false)
    else
      var (cl, aborted) := DeleteEach(d.checklist, snapshot);
      Bulk(d.(checklist := cl), aborted)
  }

  /** The items whose id is none of `ks`. */
  function WithoutIds(cl: Checklist.Items, ks: set<int>): Checklist.Items
    decreases |cl|
  {
    if |cl| == 0 then []
    else (if cl[0].id.Some? && cl[0].id.value in ks then [] else [cl[0]]) + WithoutIds(cl[1..], ks)
  }

  lemma {:induction false} WithoutOneId(cl: Checklist.Items, k: int)
    ensures Without(cl, k) == WithoutIds(cl, {k})
    decreases |cl|
  {
    if |cl| > 0 {
      WithoutOneId(cl[1..], k);
    }
  }

  lemma {:induction false} WithoutIdsTwice(cl: Checklist.Items, a: set<int>, b: set<int>)
    ensures WithoutIds(WithoutIds(cl, a), b) == WithoutIds(cl, a + b)
    decreases |cl|
  {
    if |cl| > 0 {
      WithoutIdsTwice(cl[1..], a, b);
      var head := if cl[0].id.Some? && cl[0].id.value in a then [] else [cl[0]];
      assert WithoutIds(cl, a) == head + WithoutIds(cl[1..], a);
      if head == [] {
        assert WithoutIds(cl, a) == WithoutIds(cl[1..], a);
      } else {
        assert WithoutIds(cl, a)[1..] == WithoutIds(cl[1..], a);
      }
    }
  }

  /** The ids carried by the items of a snapshot. */
  function IdSet(s: Checklist.Items): set<int> {
    set j | 0 <= j < |s| && s[j].id.Some? :: s[j].id.value
  }

  /** Deleting each id of a snapshot whose items all have ids drops exactly the items carrying one of them. */
  lemma {:induction false} DeleteEachDropsIds(cl: Checklist.Items, s: Checklist.Items)
    requires HasIds(s)
    ensures !DeleteEach(cl, s).1
    ensures DeleteEach(cl, s).0 == WithoutIds(cl, IdSet(s))
    decreases |s|
  {
    if |s| == 0 {
      assert IdSet(s) == {};
      WithoutNoIds(cl);
    } else {
      var k := s[0].id.value;
      var tail := s[1..];
      assert HasIds(tail) by {
        forall j | 0 <= j < |tail| ensures tail[j].id.Some? { assert tail[j] == s[j + 1]; }
      }
      var next := Delete(cl, k).0;
      assert next == Without(cl, k);
      WithoutOneId(cl, k);
      DeleteEachDropsIds(next, tail);
      WithoutIdsTwice(cl, {k}, IdSet(tail));
      assert IdSet(s) == {k} + IdSet(tail) by {
        forall j | 0 <= j < |tail| ensures tail[j] == s[j + 1] { }
        forall x | x in IdSet(s) ensures x in {k} + IdSet(tail) {
          var j :| 0 <= j < |s| && s[j].id.Some? && s[j].id.value == x;
          if j > 0 { assert tail[j - 1] == s[j]; }
        }
      }
    }
  }

  lemma {:induction false} WithoutNoIds(cl: Checklist.Items)
    ensures WithoutIds(cl, {}) == cl
    decreases |cl|
  {
    if |cl| > 0 {
      WithoutNoIds(cl[1..]);
      assert cl == [cl[0]] + cl[1..];
    }
  }

  /** Dropping by a set of ids is dropping the checked items, when the ids in the set are exactly theirs. */
  lemma {:induction false} WithoutCheckedIds(cl: Checklist.Items, ks: set<int>)
    requires HasIds(cl)
    requires forall j :: 0 <= j < |cl| ==> (cl[j].id.value in ks <==> IsChecked(cl[j].body))
    ensures WithoutIds(cl, ks) == UncheckedItems(cl)
    decreases |cl|
  {
    if |cl| > 0 {
      assert forall j :: 0 <= j < |cl| - 1 ==> cl[1..][j] == cl[j + 1];
      WithoutCheckedIds(cl[1..], ks);
    }
  }

  /**
   * When every checked item has an id, "delete checked" completes and drops
   * exactly the items carrying one of the checked items' ids.
   */
  lemma DeleteCheckedDropsCheckedIds(d: Document)
    requires HasIds(CheckedItems(d.checklist))
    ensures !DeleteChecked(d).aborted
    ensures DeleteChecked(d).doc.checklist == WithoutIds(d.checklist, IdSet(CheckedItems(d.checklist)))
  {
    var s := CheckedItems(d.checklist);
    if |s| == 0 {
      assert IdSet(s) == {};
      WithoutNoIds(d.checklist);
    } else {
      DeleteEachDropsIds(d.checklist, s);
    }
  }

  /**
   * With well-keyed ids, "delete checked" completes and what remains is
   * exactly the unchecked items, in their original order.
   */
  lemma DeleteCheckedKeepsUnchecked(d: Document)
    requires WellKeyed(d.checklist)
    ensures !DeleteChecked(d).aborted
    ensures DeleteChecked(d).doc.checklist == UncheckedItems(d.checklist)
  {
    var cl := d.checklist;
    var s := CheckedItems(cl);
    assert HasIds(s) by {
      forall j | 0 <= j < |s| ensures s[j].id.Some? { assert s[j] in cl; }
    }
    forall j | 0 <= j < |cl|
      ensures cl[j].id.value in IdSet(s) <==> IsChecked(cl[j].body)
    {
      if IsChecked(cl[j].body) {
        assert cl[j] in s;
        var m :| 0 <= m < |s| && s[m] == cl[j];
        assert cl[j].id.value in IdSet(s);
      }
      if cl[j].id.value in IdSet(s) {
        var m :| 0 <= m < |s| && s[m].id.Some? && s[m].id.value == cl[j].id.value;
        assert s[m] in cl;
        var n :| 0 <= n < |cl| && cl[n] == s[m];
        assert n == j;
      }
    }
    WithoutCheckedIds(cl, IdSet(s));
    DeleteCheckedDropsCheckedIds(d);
  }
}

=== FILE: collection.dfy ===
/**
 * The operations the four id-carrying collections (activities, expenses,
 * participants, checklist items) share: the fresh id, add, update by id,
 * delete by id, and the id invariant the store keeps.
 */
module Collection {
  import opened Wrappers
  import opened Records

  /** The id `add` reads from a record: a missing id counts as 0. */
  function IdOrZero<T>(x: Entry<T>): int {
    x.id.GetOr(0)
  }

  /** Some record carries id `k`; a record without an id matches no `k`. */
  predicate HasId<T>(xs: seq<Entry<T>>, k: int) {
    exists i :: 0 <= i < |xs| && xs[i].id == Some(k)
  }

  /** The largest id as `add` reads them, or 0 for an empty collection. */
  function MaxId<T>(xs: seq<Entry<T>>): (m: int)
    ensures |xs| == 0 ==> m == 0
    ensures forall i :: 0 <= i < |xs| ==> IdOrZero(xs[i]) <= m
    ensures |xs| > 0 ==> exists i :: 0 <= i < |xs| && IdOrZero(xs[i]) == m
    decreases |xs|
  {
    if |xs| == 0 then 0
    else if |xs| == 1 then IdOrZero(xs[0])
    else
      var rest := MaxId(xs[1..]);
      assert forall i :: 1 <= i < |xs| ==> xs[i] == xs[1..][i - 1];
      if IdOrZero(xs[0]) >= rest then IdOrZero(xs[0]) else rest
  }

  /** The id `add` hands out: one more than the largest id present (1 when empty). */
  function NextId<T>(xs: seq<Entry<T>>): (r: int)
    ensures forall i :: 0 <= i < |xs| ==> IdOrZero(xs[i]) < r
    ensures !HasId(xs, r)
    ensures |xs| == 0 ==> r == 1
    ensures |xs| > 0 ==> exists i :: 0 <= i < |xs| && IdOrZero(xs[i]) == r - 1
  {
    MaxId(xs) + 1
  }

  /** `add`: the payload is appended under the fresh id, whatever id it carried. */
  function Add<T>(xs: seq<Entry<T>>, payload: Entry<T>): (r: (seq<Entry<T>>, int))
    ensures r.0 == xs + [Entry(Some(r.1), payload.body)]
    ensures !HasId(xs, r.1)
    ensures forall i :: 0 <= i < |xs| ==> IdOrZero(xs[i]) < r.1
    ensures |xs| == 0 ==> r.1 == 1
    ensures |xs| > 0 ==> exists i :: 0 <= i < |xs| && IdOrZero(xs[i]) == r.1 - 1
  {
    var id := NextId(xs);
    (xs + [Entry(Some(id), payload.body)], id)
  }

  /** The position of the first record carrying id `k`, if there is one. */
  function FindIndex<T>(xs: seq<Entry<T>>, k: int): (r: Option<nat>)
    ensures r.None? <==> !HasId(xs, k)
    ensures r.Some? ==> r.value < |xs| && xs[r.value].id == Some(k)
    ensures r.Some? ==> forall j :: 0 <= j < r.value ==> xs[j].id != Some(k)
    decreases |xs|
  {
    if |xs| == 0 then None
    else if xs[0].id == Some(k) then Some(0)
    else
      assert forall i :: 1 <= i < |xs| ==> xs[i] == xs[1..][i - 1];
      match FindIndex(xs[1..], k)
      case None => None
      case Some(j) => Some(j + 1)
  }

  /**
   * `update`: the first record carrying `k` is replaced, at the same position,
   * by the payload with `k` forced as its id; reports whether there was one.
   */
  function Update<T>(xs: seq<Entry<T>>, k: int, payload: Entry<T>): (r: (seq<Entry<T>>, bool))
    ensures r.1 <==> HasId(xs, k)
    ensures !r.1 ==> r.0 == xs
    ensures r.1 ==>
      exists i :: 0 <= i < |xs| && xs[i].id == Some(k)
        && (forall j :: 0 <= j < i ==> xs[j].id != Some(k))
        && r.0 == xs[i := Entry(Some(k), payload.body)]
  {
    match FindIndex(xs, k)
    case None => (xs, false)
    case Some(i) => (xs[i := Entry(Some(k), payload.body)], true)
  }

  /** The records whose id is not `k`, in their original order. */
  function Without<T>(xs: seq<Entry<T>>, k: int): (r: seq<Entry<T>>)
    ensures |r| <= |xs|
    ensures |r| == |xs| <==> !HasId(xs, k)
    ensures !HasId(xs, k) ==> r == xs
    ensures forall i :: 0 <= i < |r| ==> r[i] in xs && r[i].id != Some(k)
    ensures forall i :: 0 <= i < |xs| && xs[i].id != Some(k) ==> xs[i] in r
    decreases |xs|
  {
    if |xs| == 0 then []
    else
      var rest := Without(xs[1..], k);
      assert forall i :: 1 <= i < |xs| ==> xs[i] == xs[1..][i - 1];
      assert xs == [xs[0]] + xs[1..];
      if xs[0].id == Some(k) then rest else [xs[0]] + rest
  }

  /**
   * `delete`: every record carrying `k` is dropped; success is reported
   * exactly when the collection got shorter.
   */
  function Delete<T>(xs: seq<Entry<T>>, k: int): (r: (seq<Entry<T>>, bool))
    ensures r.1 <==> |r.0| < |xs|
    ensures r.1 <==> HasId(xs, k)
    ensures forall i :: 0 <= i < |r.0| ==> r.0[i] in xs && r.0[i].id != Some(k)
    ensures forall i :: 0 <= i < |xs| && xs[i].id != Some(k) ==> xs[i] in r.0
    ensures !HasId(r.0, k)
    ensures !r.1 ==> r.0 == xs
  {
    var kept := Without(xs, k);
    if |kept| < |xs| then (kept, true) else (xs, false)
  }

  /** Dropping the records of one id commutes with concatenation, so relative order is kept. */
  lemma {:induction false} WithoutAppend<T>(a: seq<Entry<T>>, b: seq<Entry<T>>, k: int)
    ensures Without(a + b, k) == Without(a, k) + Without(b, k)
    decreases |a|
  {
    if |a| == 0 {
      assert a + b == b;
    } else {
      assert (a + b)[1..] == a[1..] + b;
      WithoutAppend(a[1..], b, k);
    }
  }

  /** Deleting the same id twice in a row reports success and then failure. */
  lemma DeleteTwice<T>(xs: seq<Entry<T>>, k: int)
    requires HasId(xs, k)
    ensures Delete(xs, k).1
    ensures !Delete(Delete(xs, k).0, k).1
    ensures Delete(Delete(xs, k).0, k).0 == Delete(xs, k).0
  {
  }

  /** Every record carries an id. */
  predicate HasIds<T>(xs: seq<Entry<T>>) {
    forall i :: 0 <= i < |xs| ==> xs[i].id.Some?
  }

  /** No id is carried by two records. */
  predicate UniqueIds<T>(xs: seq<Entry<T>>) {
    forall i, j :: 0 <= i < j < |xs| && xs[i].id.Some? ==> xs[i].id != xs[j].id
  }

  /** The id invariant of a collection: every record has an id, and ids are distinct. */
  predicate WellKeyed<T>(xs: seq<Entry<T>>) {
    HasIds(xs) && UniqueIds(xs)
  }

  /** Under distinct ids the first record carrying a record's id is that record itself. */
  lemma FindIndexUnique<T>(xs: seq<Entry<T>>, i: int)
    requires UniqueIds(xs)
    requires 0 <= i < |xs| && xs[i].id.Some?
    ensures FindIndex(xs, xs[i].id.value) == Some(i)
  {
    var r := FindIndex(xs, xs[i].id.value);
    assert HasId(xs, xs[i].id.value);
  }

  /** Under distinct ids no later record carries the first record's id. */
  lemma HeadIdNotInTail<T>(xs: seq<Entry<T>>)
    requires UniqueIds(xs) && |xs| > 0 && xs[0].id.Some?
    ensures forall e :: e in xs[1..] ==> e.id != xs[0].id
  {
    forall e | e in xs[1..] ensures e.id != xs[0].id {
      var m :| 0 <= m < |xs| - 1 && xs[1..][m] == e;
      assert xs[m + 1] == e;
    }
  }

  /** Distinct ids survive dropping the first record. */
  lemma TailUniqueIds<T>(xs: seq<Entry<T>>)
    requires UniqueIds(xs) && |xs| > 0
    ensures UniqueIds(xs[1..])
  {
    var tail := xs[1..];
    forall i, j | 0 <= i < j < |tail| && tail[i].id.Some?
      ensures tail[i].id != tail[j].id
    {
      assert tail[i] == xs[i + 1] && tail[j] == xs[j + 1];
    }
  }

  /** A record put in front of distinctly keyed records keeps ids distinct when its own id is new. */
  lemma ConsUniqueIds<T>(h: Entry<T>, rest: seq<Entry<T>>)
    requires UniqueIds(rest)
    requires h.id.Some? ==> forall j :: 0 <= j < |rest| ==> rest[j].id != h.id
    ensures UniqueIds([h] + rest)
  {
    var r := [h] + rest;
    forall i, j | 0 <= i < j < |r| && r[i].id.Some?
      ensures r[i].id != r[j].id
    {
      assert r[j] == rest[j - 1];
      if i > 0 {
        assert r[i] == rest[i - 1];
      }
    }
  }

  lemma {:induction false} WithoutKeepsUniqueIds<T>(xs: seq<Entry<T>>, k: int)
    requires UniqueIds(xs)
    ensures UniqueIds(Without(xs, k))
    decreases |xs|
  {
    if |xs| > 0 {
      var tail := xs[1..];
      TailUniqueIds(xs);
      WithoutKeepsUniqueIds(tail, k);
      var rest := Without(tail, k);
      if xs[0].id != Some(k) {
        var r := [xs[0]] + rest;
        assert Without(xs, k) == r;
        if xs[0].id.Some? {
          HeadIdNotInTail(xs);
          forall j | 0 <= j < |rest| ensures rest[j].id != xs[0].id {
            assert rest[j] in tail;
          }
        }
        ConsUniqueIds(xs[0], rest);
      }
    }
  }

  /** Each collection operation keeps the id invariant. */
  lemma AddKeepsWellKeyed<T>(xs: seq<Entry<T>>, payload: Entry<T>)
    requires WellKeyed(xs)
    ensures WellKeyed(Add(xs, payload).0)
  {
    var r := Add(xs, payload);
    assert forall i :: 0 <= i < |xs| ==> r.0[i] == xs[i];
  }

  lemma UpdateKeepsWellKeyed<T>(xs: seq<Entry<T>>, k: int, payload: Entry<T>)
    requires WellKeyed(xs)
    ensures WellKeyed(Update(xs, k, payload).0)
  {
  }

  lemma DeleteKeepsWellKeyed<T>(xs: seq<Entry<T>>, k: int)
    requires WellKeyed(xs)
    ensures WellKeyed(Delete(xs, k).0)
  {
    WithoutKeepsUniqueIds(xs, k);
    var r := Delete(xs, k).0;
    forall i | 0 <= i < |r| ensures r[i].id.Some? {
      assert r[i] in xs;
    }
  }

  /** The records carry consecutive ids from `first` on, in order; the default document's start at 1. */
  predicate NumberedFrom<T>(xs: seq<Entry<T>>, first: int) {
    forall i :: 0 <= i < |xs| ==> xs[i].id == Some(first + i)
  }

  /** Ids numbered 1..n are well keyed, and `add` continues the numbering with n + 1. */
  lemma NumberedFacts<T>(xs: seq<Entry<T>>)
    requires NumberedFrom(xs, 1)
    ensures WellKeyed(xs)
    ensures NextId(xs) == |xs| + 1
  {
    if |xs| > 0 {
      assert IdOrZero(xs[|xs| - 1]) == |xs|;
    }
  }

  /** Dropping the first record of a numbered collection is deleting id 1. */
  lemma NumberedWithoutFirst<T>(xs: seq<Entry<T>>)
    requires NumberedFrom(xs, 1) && |xs| > 0
    ensures Without(xs, 1) == xs[1..]
  {
    assert !HasId(xs[1..], 1) by {
      forall i | 0 <= i < |xs| - 1 ensures xs[1..][i].id != Some(1) {
        assert xs[1..][i] == xs[i + 1];
      }
    }
    assert xs == [xs[0]] + xs[1..];
  }

  /** Deleting the id `add` just handed out gives back the collection as it was. */
  lemma DeleteUndoesAdd<T>(xs: seq<Entry<T>>, payload: Entry<T>)
    ensures var (ys, id) := Add(xs, payload);
      Delete(ys, id) == (xs, true)
  {
    var (ys, id) := Add(xs, payload);
    var added := Entry(Some(id), payload.body);
    WithoutAppend(xs, [added], id);
    assert Without([added], id) == [] by {
      assert [added][1..] == [];
    }
    assert Without(ys, id) == xs;
  }

  /** A numbered collection without its first record is numbered from 2, and stays so with id n + 1 appended. */
  lemma NumberedShift<T>(xs: seq<Entry<T>>, added: Entry<T>)
    requires NumberedFrom(xs, 1) && |xs| > 0 && added.id == Some(|xs| + 1)
    ensures NumberedFrom(xs[1..] + [added], 2)
  {
    var kept := xs[1..] + [added];
    forall i | 0 <= i < |kept| ensures kept[i].id == Some(2 + i) {
      if i < |xs| - 1 { assert kept[i] == xs[i + 1]; }
    }
  }

  /**
   * On a collection numbered 1..n, `add` hands out n + 1, and deleting id 1
   * afterwards leaves the records numbered 2..n + 1.
   */
  lemma AddThenDeleteFirst<T>(xs: seq<Entry<T>>, payload: Entry<T>)
    requires NumberedFrom(xs, 1) && |xs| > 0
    ensures var (ys, id) := Add(xs, payload);
      && id == |xs| + 1
      && Delete(ys, 1).1
      && Delete(ys, 1).0 == xs[1..] + [Entry(Some(id), payload.body)]
      && NumberedFrom(Delete(ys, 1).0, 2)
  {
    NumberedFacts(xs);
    var (ys, id) := Add(xs, payload);
    var added := Entry(Some(id), payload.body);
    WithoutAppend(xs, [added], 1);
    NumberedWithoutFirst(xs);
    assert Without([added], 1) == [added] by {
      assert [added][1..] == [];
    }
    NumberedShift(xs, added);
  }
}

=== FILE: defaults.dfy ===
/** The embedded default trip document, installed by a reset and on first start. */
module Defaults {
  import opened Wrappers
  import opened Records
  import opened Collection

  const DefaultVoyageInfo: VoyageInfo := VoyageInfo(
    "Amsterdam", "2025-09-15", "2025-09-20",
    "Voyage d'etude a Amsterdam pour decouvrir la culture neerlandaise")

  const DefaultActivites: seq<Entry<Activity>> := [
    Entry(Some(1), Activity("2025-09-15", "Visite du Rijksmuseum", "Museumstraat 1", "10:00", "3h", 22.50,
      "Musee national avec les oeuvres de Rembrandt et Vermeer")),
    Entry(Some(2), Activity("2025-09-16", "Maison d'Anne Frank", "Prinsengracht 263-267", "09:00", "2h", 16.00,
      "Visite historique de la cachette d'Anne Frank")),
    Entry(Some(3), Activity("2025-09-17", "Croisiere sur les canaux", "Damrak", "14:00", "1h30", 18.00,
      "Decouverte de la ville depuis les canaux"))
  ]

  const DefaultBudget: Budget := Budget(500.00, "EUR", [
    Entry(Some(1), Expense("2025-09-15", Some("Transport"), Some(150.00),
      "Billet de train aller-retour", "Groupe"))
  ])

  const DefaultHotel: Hotel := Hotel(
    "Hotel Amsterdam Centre", "Damrak 93-94, 1012 LP Amsterdam", "+31 20 555 0000",
    "info@hotelamsterdam.nl", "www.hotelamsterdam.nl",
    "2025-09-15", "15:00", "2025-09-20", "11:00",
    "AMS-2025-001", 5, "Double", true, true,
    "Situe au centre-ville, proche de la gare centrale")

  const DefaultTransport: Transport := Transport(
    Leg("Train", "Thalys", "THA 9321", "Paris Gare du Nord", "2025-09-15", "07:25",
      "Amsterdam Centraal", "10:44", "Voiture 12", "Rendez-vous a la gare a 06:45"),
    Leg("Train", "Thalys", "THA 9346", "Amsterdam Centraal", "2025-09-20", "17:17",
      "Paris Gare du Nord", "20:41", "Voiture 8", "Prevoir d'etre a la gare a 16:30"),
    [LocalTransport("Metro", "Abonnement GVB 5 jours", 40.50)])

  const DefaultParticipants: seq<Entry<Participant>> := [
    Entry(Some(1), Participant("Dupont", "Marie", "marie.dupont@email.com", "06 12 34 56 78",
      "Organisateur", "2000-05-15", "", "Responsable du groupe")),
    Entry(Some(2), Participant("Martin", "Lucas", "lucas.martin@email.com", "06 98 76 54 32",
      "Responsable budget", "2001-03-22", "Arachides", "Gere les depenses du groupe"))
  ]

  /** The default checklist's (item, category) rows; the items get ids 1..12 in this order. */
  const DefaultChecklistRows: seq<(string, string)> := [
    ("Passeport/Carte d'identite", "Documents"),
    ("Carte europeenne d'assurance maladie", "Documents"),
    ("Billets de train", "Documents"),
    ("Confirmation hotel", "Documents"),
    ("Vetements pour 5 jours", "Vetements"),
    ("Veste impermeable", "Vetements"),
    ("Chaussures confortables", "Vetements"),
    ("Chargeur telephone", "Electronique"),
    ("Appareil photo", "Electronique"),
    ("Batterie externe", "Electronique"),
    ("Brosse a dents", "Hygiene"),
    ("Medicaments personnels", "Medicaments")
  ]

  /** Numbers the rows from `next` on, every item unchecked. */
  function NumberedItems(rows: seq<(string, string)>, next: int): (r: seq<Entry<ChecklistItem>>)
    ensures |r| == |rows|
    ensures forall i :: 0 <= i < |rows| ==>
      r[i] == Entry(Some(next + i), ChecklistItem(rows[i].0, rows[i].1, Some(false)))
    decreases |rows|
  {
    if |rows| == 0 then []
    else [Entry(Some(next), ChecklistItem(rows[0].0, rows[0].1, Some(false)))] + NumberedItems(rows[1..], next + 1)
  }

  const DefaultChecklist: seq<Entry<ChecklistItem>> := NumberedItems(DefaultChecklistRows, 1)

  const DefaultData: Document := Document(
    DefaultVoyageInfo, DefaultActivites, DefaultBudget, DefaultHotel,
    DefaultTransport, DefaultParticipants, DefaultChecklist)

  /** The default collections are numbered 1..n: three activities, one expense, two participants, twelve items. */
  lemma ActivitesNumbered()
    ensures NumberedFrom(DefaultActivites, 1) && |DefaultActivites| == 3
  {
  }

  lemma DepensesNumbered()
    ensures NumberedFrom(DefaultBudget.depenses, 1) && |DefaultBudget.depenses| == 1
    ensures DefaultBudget.budgetPrevu == 500.0
    ensures CategoryOf(DefaultBudget.depenses[0].body) == "Transport"
    ensures AmountOf(DefaultBudget.depenses[0].body) == 150.0
  {
  }

  lemma ParticipantsNumbered()
    ensures NumberedFrom(DefaultParticipants, 1) && |DefaultParticipants| == 2
  {
  }

  lemma ChecklistNumbered()
    ensures NumberedFrom(DefaultChecklist, 1) && |DefaultChecklist| == 12
    ensures forall i :: 0 <= i < |DefaultChecklist| ==> !IsChecked(DefaultChecklist[i].body)
  {
  }

  /** The sections of the default document are the constants above. */
  lemma DataSections()
    ensures DefaultData.activites == DefaultActivites
    ensures DefaultData.budget == DefaultBudget
    ensures DefaultData.participants == DefaultParticipants
    ensures DefaultData.checklist == DefaultChecklist
  {
  }
}

=== FILE: expenses.dfy ===
/**
 * The derived expense views: the total spend and the per-category totals.
 * An expense without an amount counts as 0, one without a category is filed
 * under "Autre". Amounts are exact reals.
 */
module Expenses {
  import opened Records

  type Expenses = seq<Entry<Expense>>

  /** No expense has a negative amount (the expense form only lets positive amounts through). */
  predicate NonNegative(xs: Expenses) {
    forall i :: 0 <= i < |xs| ==> AmountOf(xs[i].body) >= 0.0
  }

  /**
   * `get_total_depenses`: the sum of the amounts, a missing amount counting
   * as 0; 0 for no expenses, and with no negative amount it bounds every amount.
   */
  function Total(xs: Expenses): (t: real)
    ensures |xs| == 0 ==> t == 0.0
    ensures NonNegative(xs) ==> t >= 0.0
    ensures NonNegative(xs) ==> forall i :: 0 <= i < |xs| ==> AmountOf(xs[i].body) <= t
    decreases |xs|
  {
    if |xs| == 0 then 0.0
    else
      assert forall i :: 1 <= i < |xs| ==> xs[i] == xs[1..][i - 1];
      AmountOf(xs[0].body) + Total(xs[1..])
  }

  lemma {:induction false} TotalAppend(a: Expenses, b: Expenses)
    ensures Total(a + b) == Total(a) + Total(b)
    decreases |a|
  {
    if |a| == 0 {
      assert a + b == b;
    } else {
      assert (a + b)[1..] == a[1..] + b;
      TotalAppend(a[1..], b);
    }
  }

  /** The spend of one category, the reference the per-category map is checked against. */
  function CategorySum(xs: Expenses, c: string): real
    decreases |xs|
  {
    if |xs| == 0 then 0.0
    else (if CategoryOf(xs[0].body) == c then AmountOf(xs[0].body) else 0.0) + CategorySum(xs[1..], c)
  }

  lemma {:induction false} CategorySumAppend(a: Expenses, b: Expenses, c: string)
    ensures CategorySum(a + b, c) == CategorySum(a, c) + CategorySum(b, c)
    decreases |a|
  {
    if |a| == 0 {
      assert a + b == b;
    } else {
      assert (a + b)[1..] == a[1..] + b;
      CategorySumAppend(a[1..], b, c);
    }
  }

  /** The categories that occur among the expenses. */
  function Categories(xs: Expenses): set<string> {
    set i | 0 <= i < |xs| :: CategoryOf(xs[i].body)
  }

  /** A category that does not occur has no spend. */
  lemma {:induction false} CategorySumAbsent(xs: Expenses, c: string)
    requires c !in Categories(xs)
    ensures CategorySum(xs, c) == 0.0
    decreases |xs|
  {
    if |xs| > 0 {
      assert CategoryOf(xs[0].body) != c;
      assert Categories(xs[1..]) <= Categories(xs) by {
        forall i | 0 <= i < |xs| - 1 ensures xs[1..][i] == xs[i + 1] { }
      }
      CategorySumAbsent(xs[1..], c);
    }
  }

  /** One step of the per-category pass: the expense's amount is added to its category's running total. */
  function Accumulate(m: map<string, real>, e: Expense): map<string, real> {
    var c := CategoryOf(e);
    m[c := (if c in m then m[c] else 0.0) + AmountOf(e)]
  }

  /** One step of the pass keeps the map equal to the per-category spend of the expenses seen. */
  lemma AccumulateStep(init: Expenses, last: Entry<Expense>, before: map<string, real>)
    requires before.Keys == Categories(init)
    requires forall c :: c in before ==> before[c] == CategorySum(init, c)
    ensures Accumulate(before, last.body).Keys == Categories(init + [last])
    ensures forall c :: c in Accumulate(before, last.body) ==>
      Accumulate(before, last.body)[c] == CategorySum(init + [last], c)
  {
    var xs := init + [last];
    var c := CategoryOf(last.body);
    assert Categories(xs) == Categories(init) + {c} by {
      assert forall i :: 0 <= i < |init| ==> xs[i] == init[i];
      assert xs[|init|] == last;
      forall x | x in Categories(xs) ensures x in Categories(init) + {c} {
        var i :| 0 <= i < |xs| && CategoryOf(xs[i].body) == x;
        if i < |init| { assert CategoryOf(init[i].body) == x; }
      }
    }
    forall d ensures CategorySum(xs, d) == CategorySum(init, d) + (if c == d then AmountOf(last.body) else 0.0) {
      CategorySumAppend(init, [last], d);
      assert [last][1..] == [];
    }
    if c !in before {
      CategorySumAbsent(init, c);
    }
  }

  /**
   * `get_depenses_by_category`: one pass over the expenses in order, adding
   * each amount to its category's running total. Its keys are exactly the
   * categories that occur and each value is that category's spend.
   */
  function ByCategory(xs: Expenses): (m: map<string, real>)
    ensures m.Keys == Categories(xs)
    ensures forall c :: c in m ==> m[c] == CategorySum(xs, c)
    decreases |xs|
  {
    if |xs| == 0 then map[]
    else
      var init := xs[..|xs| - 1];
      var last := xs[|xs| - 1];
      var before := ByCategory(init);
      assert xs == init + [last];
      AccumulateStep(init, last, before);
      Accumulate(before, last.body)
  }

  /** The sum of a map's values (the order of summation does not matter, see SumValuesRemove). */
  ghost function SumValues(m: map<string, real>): real
    decreases |m|
  {
    if m == map[] then 0.0
    else
      var k :| k in m;
      assert |m.Keys - {k}| == |m.Keys| - 1;
      m[k] + SumValues(m - {k})
  }

  lemma {:induction false} SumValuesRemove(m: map<string, real>, k: string)
    requires k in m
    ensures SumValues(m) == m[k] + SumValues(m - {k})
    decreases |m|
  {
    var j :| j in m && SumValues(m) == m[j] + SumValues(m - {j});
    if j != k {
      assert |m.Keys - {j}| == |m.Keys| - 1;
      assert |m.Keys - {k}| == |m.Keys| - 1;
      SumValuesRemove(m - {j}, k);
      SumValuesRemove(m - {k}, j);
      assert m - {j} - {k} == m - {k} - {j};
    }
  }

  lemma SumValuesAdd(m: map<string, real>, e: Expense)
    ensures SumValues(Accumulate(m, e)) == SumValues(m) + AmountOf(e)
  {
    var c := CategoryOf(e);
    var m' := Accumulate(m, e);
    SumValuesRemove(m', c);
    assert m' - {c} == m - {c};
    if c in m {
      SumValuesRemove(m, c);
    } else {
      assert m - {c} == m;
    }
  }

  /** The per-category totals add up to the total spend. */
  lemma {:induction false} ByCategorySumsToTotal(xs: Expenses)
    ensures SumValues(ByCategory(xs)) == Total(xs)
    decreases |xs|
  {
    if |xs| == 0 {
    } else {
      var init := xs[..|xs| - 1];
      var last := xs[|xs| - 1];
      assert xs == init + [last];
      ByCategorySumsToTotal(init);
      TotalAppend(init, [last]);
      assert [last][1..] == [];
      assert ByCategory(xs) == Accumulate(ByCategory(init), last.body);
      SumValuesAdd(ByCategory(init), last.body);
    }
  }

  /** A single expense: the total is its amount and the map has its category alone. */
  lemma SingleExpense(e: Entry<Expense>)
    ensures Total([e]) == AmountOf(e.body)
    ensures ByCategory([e]) == map[CategoryOf(e.body) := AmountOf(e.body)]
  {
    assert [e][1..] == [];
    assert [e][..0] == [];
  }
}

=== FILE: lifecycle.dfy ===
/**
 * Facts about the default document and short sequences of store calls
 * starting from a reset.
 */
module Lifecycle {
  import opened Wrappers
  import opened Records
  import opened Collection
  import Checklist
  import Expenses
  import Defaults
  import Store
  import BudgetScreen

  /** The default activities, participants and checklist carry the ids 1..n, in order. */
  lemma DefaultIds()
    ensures NumberedFrom(Defaults.DefaultData.activites, 1) && |Defaults.DefaultData.activites| == 3
    ensures NumberedFrom(Defaults.DefaultData.participants, 1) && |Defaults.DefaultData.participants| == 2
    ensures NumberedFrom(Defaults.DefaultData.checklist, 1) && |Defaults.DefaultData.checklist| == 12
    ensures Store.Invariant(Defaults.DefaultData)
  {
    Defaults.DataSections();
    Defaults.ActivitesNumbered();
    Defaults.ParticipantsNumbered();
    Defaults.ChecklistNumbered();
    Store.ResetEstablishesInvariant(Defaults.DefaultData);
  }

  /** The default budget: 500 planned and a single expense, id 1, 150 on "Transport". */
  lemma DefaultBudgetShape()
    ensures Defaults.DefaultData.budget.budgetPrevu == 500.0
    ensures NumberedFrom(Defaults.DefaultData.budget.depenses, 1) && |Defaults.DefaultData.budget.depenses| == 1
    ensures CategoryOf(Defaults.DefaultData.budget.depenses[0].body) == "Transport"
    ensures AmountOf(Defaults.DefaultData.budget.depenses[0].body) == 150.0
  {
    Defaults.DataSections();
    Defaults.DepensesNumbered();
  }

  /** The default spend: 150 in total, all of it on "Transport". */
  lemma DefaultSpend()
    ensures Store.GetTotalDepenses(Defaults.DefaultData) == 150.0
    ensures Store.GetDepensesByCategory(Defaults.DefaultData) == map["Transport" := 150.0]
  {
    DefaultBudgetShape();
    var xs := Defaults.DefaultData.budget.depenses;
    assert xs == [xs[0]];
    Expenses.SingleExpense(xs[0]);
  }

  /** 350 of the 500 planned is left, well above a fifth: the default budget shows as fine. */
  lemma DefaultStatus()
    ensures BudgetScreen.DocumentStatus(Defaults.DefaultData) == BudgetScreen.Success
  {
    DefaultBudgetShape();
    DefaultSpend();
  }

  /** Nothing on the default checklist is checked: progress is (0, 12, 0). */
  lemma DefaultProgress()
    ensures Store.GetChecklistProgress(Defaults.DefaultData) == Checklist.Progress(0, 12, 0)
  {
    Defaults.DataSections();
    Defaults.ChecklistNumbered();
    assert Checklist.CountChecked(Defaults.DefaultChecklist) == 0;
  }

  /** Adding an activity right after a reset hands out id 4. */
  lemma AddAfterReset(d: Document, a: Entry<Activity>)
    ensures Store.AddActivite(Store.ResetToDefaults(d), a).1 == 4
  {
    Defaults.DataSections();
    Defaults.ActivitesNumbered();
    NumberedFacts(Defaults.DefaultActivites);
  }

  /**
   * Reset, add "Canal tour" (25.00): four activities and id 4; delete id 1:
   * three activities with ids 2, 3, 4.
   */
  lemma CanalTourScenario(d: Document)
    ensures var d0 := Store.ResetToDefaults(d);
      var a := Entry(None, Activity("2025-09-18", "Canal tour", "Damrak", "11:00", "1h", 25.00, ""));
      var (d1, id) := Store.AddActivite(d0, a);
      var (d2, removed) := Store.DeleteActivite(d1, 1);
      && id == 4 && |d1.activites| == 4
      && removed && |d2.activites| == 3 && NumberedFrom(d2.activites, 2)
  {
    var a := Entry(None, Activity("2025-09-18", "Canal tour", "Damrak", "11:00", "1h", 25.00, ""));
    Defaults.DataSections();
    Defaults.ActivitesNumbered();
    AddThenDeleteFirst(Defaults.DefaultActivites, a);
  }

  /**
   * Ids are fresh only with respect to what is present: once the largest id
   * is deleted, the next add hands that id out again.
   */
  lemma IdReusedAfterDeletingMax(d: Document, a: Entry<Activity>, b: Entry<Activity>)
    ensures var d0 := Store.ResetToDefaults(d);
      var (d1, first) := Store.AddActivite(d0, a);
      var (d2, removed) := Store.DeleteActivite(d1, first);
      var (d3, second) := Store.AddActivite(d2, b);
      first == 4 && removed && second == 4
  {
    AddAfterReset(d, a);
    AddAfterReset(d, b);
    DeleteUndoesAdd(Defaults.DefaultActivites, a);
    Defaults.DataSections();
  }
}

=== FILE: records.dfy ===
/**
 * The trip document and its entities. Every collection record is an `Entry`:
 * an id that a hand-edited document may lack, and the record's other fields.
 * The fields the store reads with a default (an expense's category and amount,
 * a checklist item's checked flag) are `Option`s; the rest are plain values.
 */
module Records {
  import opened Wrappers

  /** A record of an id-carrying collection. */
  datatype Entry<T> = Entry(id: Option<int>, body: T)

  datatype Activity = Activity(
    date: string, nom: string, lieu: string, horaire: string,
    duree: string, prix: real, description: string)

  datatype Expense = Expense(
    date: string, categorie: Option<string>, montant: Option<real>,
    description: string, participant: string)

  datatype Participant = Participant(
    nom: string, prenom: string, email: string, telephone: string, role: string,
    dateNaissance: string, allergies: string, notes: string)

  datatype ChecklistItem = ChecklistItem(item: string, categorie: string, checked: Option<bool>)

  /** One direction (aller or retour) of the journey; `kind` is the stored `type`. */
  datatype Leg = Leg(
    kind: string, compagnie: string, numero: string,
    departLieu: string, departDate: string, departHeure: string,
    arriveeLieu: string, arriveeHeure: string, place: string, notes: string)

  /** A local transport; it has no id, its position in `surPlace` identifies it. */
  datatype LocalTransport = LocalTransport(kind: string, description: string, prix: real)

  datatype Transport = Transport(aller: Leg, retour: Leg, surPlace: seq<LocalTransport>)

  datatype Hotel = Hotel(
    nom: string, adresse: string, telephone: string, email: string, siteWeb: string,
    dateCheckin: string, heureCheckin: string, dateCheckout: string, heureCheckout: string,
    numeroReservation: string, nombreChambres: int, typeChambre: string,
    petitDejeuner: bool, wifi: bool, notes: string)

  datatype VoyageInfo = VoyageInfo(
    destination: string, dateDepart: string, dateRetour: string, description: string)

  datatype Budget = Budget(budgetPrevu: real, devise: string, depenses: seq<Entry<Expense>>)

  /** The whole trip document: three singleton sections, the budget, and four collections. */
  datatype Document = Document(
    voyageInfo: VoyageInfo,
    activites: seq<Entry<Activity>>,
    budget: Budget,
    hotel: Hotel,
    transport: Transport,
    participants: seq<Entry<Participant>>,
    checklist: seq<Entry<ChecklistItem>>)

  /** The category an expense without one is filed under. */
  const DefaultCategory: string := "Autre"

  function CategoryOf(e: Expense): string {
    e.categorie.GetOr(DefaultCategory)
  }

  function AmountOf(e: Expense): real {
    e.montant.GetOr(0.0)
  }

  /** A checklist item without a checked flag counts as unchecked. */
  predicate IsChecked(c: ChecklistItem) {
    c.checked.GetOr(false)
  }

  /** The item with its checked flag stored as `b`. */
  function WithChecked(x: Entry<ChecklistItem>, b: bool): Entry<ChecklistItem> {
    x.(body := x.body.(checked := Some(b)))
  }
}

=== FILE: store.dfy ===
/**
 * The trip store: every read and write of the trip document. Each operation
 * takes the current document and returns the next one together with the
 * value the store hands back. Each write touches only its own section.
 * Persisting after a write is not modelled here.
 */
module Store {
  import opened Wrappers
  import opened Records
  import opened Collection
  import Checklist
  import Expenses
  import Defaults

  // ---- whole document ----

  /** `reset_to_defaults`: whatever the document held, the embedded defaults replace it. */
  function ResetToDefaults(d: Document): (r: Document)
    ensures NumberedFrom(r.activites, 1) && |r.activites| == 3
    ensures NumberedFrom(r.budget.depenses, 1) && |r.budget.depenses| == 1 && r.budget.budgetPrevu == 500.0
    ensures NumberedFrom(r.participants, 1) && |r.participants| == 2
    ensures NumberedFrom(r.checklist, 1) && |r.checklist| == 12
    ensures forall i :: 0 <= i < |r.checklist| ==> !IsChecked(r.checklist[i].body)
  {
    Defaults.DataSections();
    Defaults.ActivitesNumbered();
    Defaults.DepensesNumbered();
    Defaults.ParticipantsNumbered();
    Defaults.ChecklistNumbered();
    Defaults.DefaultData
  }

  // ---- singleton sections ----

  function UpdateVoyageInfo(d: Document, info: VoyageInfo): (r: Document)
    ensures r.voyageInfo == info
    ensures r.(voyageInfo := d.voyageInfo) == d
  {
    d.(voyageInfo := info)
  }

  function UpdateHotel(d: Document, hotel: Hotel): (r: Document)
    ensures r.hotel == hotel
    ensures r.(hotel := d.hotel) == d
  {
    d.(hotel := hotel)
  }

  function UpdateTransport(d: Document, transport: Transport): (r: Document)
    ensures r.transport == transport
    ensures r.(transport := d.transport) == d
  {
    d.(transport := transport)
  }

  /** `update_budget_prevu`: only the planned amount changes; the expenses are untouched. */
  function UpdateBudgetPrevu(d: Document, montant: real): (r: Document)
    ensures r.budget.budgetPrevu == montant
    ensures r.budget.depenses == d.budget.depenses && r.budget.devise == d.budget.devise
    ensures r.(budget := d.budget) == d
  {
    d.(budget := d.budget.(budgetPrevu := montant))
  }

  // ---- activities ----

  function AddActivite(d: Document, a: Entry<Activity>): (r: (Document, int))
    ensures r.0.activites == d.activites + [Entry(Some(r.1), a.body)]
    ensures r.1 == NextId(d.activites)
    ensures !HasId(d.activites, r.1)
    ensures forall i :: 0 <= i < |d.activites| ==> IdOrZero(d.activites[i]) < r.1
    ensures r.0.(activites := d.activites) == d
  {
    var (xs, id) := Add(d.activites, a);
    (d.(activites := xs), id)
  }

  function UpdateActivite(d: Document, k: int, a: Entry<Activity>): (r: (Document, bool))
    ensures r.1 <==> HasId(d.activites, k)
    ensures r.0.activites == Update(d.activites, k, a).0
    ensures r.0.(activites := d.activites) == d
  {
    var (xs, found) := Update(d.activites, k, a);
    (d.(activites := xs), found)
  }

  function DeleteActivite(d: Document, k: int): (r: (Document, bool))
    ensures r.1 <==> HasId(d.activites, k)
    ensures r.0.activites == Delete(d.activites, k).0
    ensures r.0.(activites := d.activites) == d
  {
    var (xs, removed) := Delete(d.activites, k);
    (d.(activites := xs), removed)
  }

  // ---- expenses ----

  function AddDepense(d: Document, e: Entry<Expense>): (r: (Document, int))
    ensures r.0.budget.depenses == d.budget.depenses + [Entry(Some(r.1), e.body)]
    ensures r.1 == NextId(d.budget.depenses)
    ensures !HasId(d.budget.depenses, r.1)
    ensures forall i :: 0 <= i < |d.budget.depenses| ==> IdOrZero(d.budget.depenses[i]) < r.1
    ensures r.0.budget.budgetPrevu == d.budget.budgetPrevu && r.0.budget.devise == d.budget.devise
    ensures r.0.(budget := d.budget) == d
  {
    var (xs, id) := Add(d.budget.depenses, e);
    (d.(budget := d.budget.(depenses := xs)), id)
  }

  function DeleteDepense(d: Document, k: int): (r: (Document, bool))
    ensures r.1 <==> HasId(d.budget.depenses, k)
    ensures r.0.budget.depenses == Delete(d.budget.depenses, k).0
    ensures r.0.budget.budgetPrevu == d.budget.budgetPrevu && r.0.budget.devise == d.budget.devise
    ensures r.0.(budget := d.budget) == d
  {
    var (xs, removed) := Delete(d.budget.depenses, k);
    (d.(budget := d.budget.(depenses := xs)), removed)
  }

  /** `get_total_depenses` over the stored expenses. */
  function GetTotalDepenses(d: Document): (r: real)
    ensures r == Expenses.Total(d.budget.depenses)
    ensures |d.budget.depenses| == 0 ==> r == 0.0
    ensures Expenses.NonNegative(d.budget.depenses) ==> r >= 0.0
  {
    Expenses.Total(d.budget.depenses)
  }

  /** `get_depenses_by_category` over the stored expenses. */
  function GetDepensesByCategory(d: Document): (r: map<string, real>)
    ensures r == Expenses.ByCategory(d.budget.depenses)
    ensures r.Keys == Expenses.Categories(d.budget.depenses)
    ensures forall c :: c in r ==> r[c] == Expenses.CategorySum(d.budget.depenses, c)
  {
    Expenses.ByCategory(d.budget.depenses)
  }

  // ---- participants ----

  function AddParticipant(d: Document, p: Entry<Participant>): (r: (Document, int))
    ensures r.0.participants == d.participants + [Entry(Some(r.1), p.body)]
    ensures r.1 == NextId(d.participants)
    ensures !HasId(d.participants, r.1)
    ensures forall i :: 0 <= i < |d.participants| ==> IdOrZero(d.participants[i]) < r.1
    ensures r.0.(participants := d.participants) == d
  {
    var (xs, id) := Add(d.participants, p);
    (d.(participants := xs), id)
  }

  function UpdateParticipant(d: Document, k: int, p: Entry<Participant>): (r: (Document, bool))
    ensures r.1 <==> HasId(d.participants, k)
    ensures r.0.participants == Update(d.participants, k, p).0
    ensures r.0.(participants := d.participants) == d
  {
    var (xs, found) := Update(d.participants, k, p);
    (d.(participants := xs), found)
  }

  function DeleteParticipant(d: Document, k: int): (r: (Document, bool))
    ensures r.1 <==> HasId(d.participants, k)
    ensures r.0.participants == Delete(d.participants, k).0
    ensures r.0.(participants := d.participants) == d
  {
    var (xs, removed) := Delete(d.participants, k);
    (d.(participants := xs), removed)
  }

  // ---- checklist ----

  function AddChecklistItem(d: Document, item: Entry<ChecklistItem>): (r: (Document, int))
    ensures r.0.checklist == Checklist.AddItem(d.checklist, item).0
    ensures r.1 == NextId(d.checklist)
    ensures !HasId(d.checklist, r.1) && r.0.checklist[|d.checklist|].id == Some(r.1)
    ensures r.0.(checklist := d.checklist) == d
  {
    var (xs, id) := Checklist.AddItem(d.checklist, item);
    (d.(checklist := xs), id)
  }

  function ToggleChecklistItem(d: Document, k: int): (r: (Document, bool))
    ensures r.0.checklist == Checklist.Toggle(d.checklist, k).0
    ensures r.1 == Checklist.Toggle(d.checklist, k).1
    ensures HasId(d.checklist, k) ==>
      r.1 == !IsChecked(d.checklist[FindIndex(d.checklist, k).value].body)
      && IsChecked(r.0.checklist[FindIndex(d.checklist, k).value].body) == r.1
    ensures !HasId(d.checklist, k) ==> r == (d, false)
    ensures r.0.(checklist := d.checklist) == d
  {
    var (xs, v) := Checklist.Toggle(d.checklist, k);
    (d.(checklist := xs), v)
  }

  function DeleteChecklistItem(d: Document, k: int): (r: (Document, bool))
    ensures r.1 <==> HasId(d.checklist, k)
    ensures r.0.checklist == Delete(d.checklist, k).0
    ensures r.0.(checklist := d.checklist) == d
  {
    var (xs, removed) := Delete(d.checklist, k);
    (d.(checklist := xs), removed)
  }

  /** `get_checklist_progress` over the stored checklist. */
  function GetChecklistProgress(d: Document): (r: Checklist.Progress)
    ensures r == Checklist.GetProgress(d.checklist)
    ensures r.total == |d.checklist| && r.checked <= r.total && r.percentage <= 100
    ensures |d.checklist| > 0 ==> (r.percentage == 100 <==> forall i :: 0 <= i < |d.checklist| ==> IsChecked(d.checklist[i].body))
  {
    Checklist.GetProgress(d.checklist)
  }

  // ---- the store invariant ----

  /** Every collection of the document is well keyed: ids present and distinct. */
  predicate Invariant(d: Document) {
    && WellKeyed(d.activites)
    && WellKeyed(d.budget.depenses)
    && WellKeyed(d.participants)
    && WellKeyed(d.checklist)
  }

  /** The default document satisfies the invariant, so a reset establishes it. */
  lemma ResetEstablishesInvariant(d: Document)
    ensures Invariant(ResetToDefaults(d))
  {
    Defaults.ActivitesNumbered();
    Defaults.DepensesNumbered();
    Defaults.ParticipantsNumbered();
    Defaults.ChecklistNumbered();
    NumberedFacts(Defaults.DefaultActivites);
    NumberedFacts(Defaults.DefaultBudget.depenses);
    NumberedFacts(Defaults.DefaultParticipants);
    NumberedFacts(Defaults.DefaultChecklist);
  }

  /** Toggling a checklist item keeps the ids, so it keeps the invariant. */
  lemma ToggleKeepsInvariant(d: Document, k: int)
    requires Invariant(d)
    ensures Invariant(ToggleChecklistItem(d, k).0)
  {
    var r := ToggleChecklistItem(d, k).0;
    assert forall j :: 0 <= j < |d.checklist| ==> r.checklist[j].id == d.checklist[j].id;
  }

  /** Every write the store offers keeps the invariant. */
  lemma WritesKeepInvariant(d: Document, k: int, a: Entry<Activity>, e: Entry<Expense>,
                            p: Entry<Participant>, c: Entry<ChecklistItem>, montant: real,
                            info: VoyageInfo, hotel: Hotel, transport: Transport)
    requires Invariant(d)
    ensures Invariant(AddActivite(d, a).0)
    ensures Invariant(UpdateActivite(d, k, a).0)
    ensures Invariant(DeleteActivite(d, k).0)
    ensures Invariant(AddDepense(d, e).0)
    ensures Invariant(DeleteDepense(d, k).0)
    ensures Invariant(UpdateBudgetPrevu(d, montant))
    ensures Invariant(AddParticipant(d, p).0)
    ensures Invariant(UpdateParticipant(d, k, p).0)
    ensures Invariant(DeleteParticipant(d, k).0)
    ensures Invariant(AddChecklistItem(d, c).0)
    ensures Invariant(ToggleChecklistItem(d, k).0)
    ensures Invariant(DeleteChecklistItem(d, k).0)
    ensures Invariant(UpdateVoyageInfo(d, info))
    ensures Invariant(UpdateHotel(d, hotel))
    ensures Invariant(UpdateTransport(d, transport))
  {
    AddKeepsWellKeyed(d.activites, a);
    UpdateKeepsWellKeyed(d.activites, k, a);
    DeleteKeepsWellKeyed(d.activites, k);
    AddKeepsWellKeyed(d.budget.depenses, e);
    DeleteKeepsWellKeyed(d.budget.depenses, k);
    AddKeepsWellKeyed(d.participants, p);
    UpdateKeepsWellKeyed(d.participants, k, p);
    DeleteKeepsWellKeyed(d.participants, k);
    var c' := c.(body := c.body.(checked := Some(c.body.checked.GetOr(false))));
    AddKeepsWellKeyed(d.checklist, c');
    ToggleKeepsInvariant(d, k);
    DeleteKeepsWellKeyed(d.checklist, k);
  }
}

=== FILE: text.dfy ===
/** Whitespace trimming as the forms apply it to typed text (Python's `str.strip()`). */
module Text {

  /** The characters `str.isspace()` accepts. */
  predicate IsSpace(c: char) {
    || c == ' ' || c == '\t' || c == '\n' || c == '\r'
    || c == '\U{000B}' || c == '\U{000C}'
    || ('\U{001C}' <= c <= '\U{001F}')
    || c == '\U{0085}' || c == '\U{00A0}' || c == '\U{1680}'
    || ('\U{2000}' <= c <= '\U{200A}')
    || c == '\U{2028}' || c == '\U{2029}' || c == '\U{202F}' || c == '\U{205F}' || c == '\U{3000}'
  }

  /** Where the text proper starts: the first non-whitespace position at or after `i`, or `|s|`. */
  function StartOfText(s: string, i: nat): (k: nat)
    requires i <= |s|
    ensures i <= k <= |s|
    ensures forall m :: i <= m < k ==> IsSpace(s[m])
    ensures k < |s| ==> !IsSpace(s[k])
    decreases |s| - i
  {
    if i < |s| && IsSpace(s[i]) then StartOfText(s, i + 1) else i
  }

  /** Where the text proper ends: `j` moved back over whitespace, but not below `lo`. */
  function EndOfText(s: string, lo: nat, j: nat): (k: nat)
    requires lo <= j <= |s|
    ensures lo <= k <= j
    ensures forall m :: k <= m < j ==> IsSpace(s[m])
    ensures k > lo ==> !IsSpace(s[k - 1])
    decreases j
  {
    if j > lo && IsSpace(s[j - 1]) then EndOfText(s, lo, j - 1) else j
  }

  /** `s[i..j]` is what remains of `s` once whitespace is dropped at both ends. */
  predicate TrimmedSlice(s: string, i: int, j: int) {
    && 0 <= i <= j <= |s|
    && (forall k :: 0 <= k < i ==> IsSpace(s[k]))
    && (forall k :: j <= k < |s| ==> IsSpace(s[k]))
  }

  /**
   * `strip()`: the slice of `s` left once the whitespace at both ends is
   * dropped; it is empty exactly when `s` is all whitespace.
   */
  function Strip(s: string): (r: string)
    ensures exists i, j :: TrimmedSlice(s, i, j) && r == s[i..j]
    ensures |r| > 0 ==> !IsSpace(r[0]) && !IsSpace(r[|r| - 1])
    ensures |r| == 0 <==> forall k :: 0 <= k < |s| ==> IsSpace(s[k])
  {
    var i := StartOfText(s, 0);
    var j := EndOfText(s, i, |s|);
    assert TrimmedSlice(s, i, j);
    s[i..j]
  }
}

=== FILE: transport_screen.dfy ===
/**
 * The transport screen's edits of the transport section: appending a local
 * transport, deleting one by its position, and saving both journey legs.
 * Each writes the whole transport section back through the store.
 */
module TransportScreen {
  import opened Wrappers
  import opened Records
  import Store

  datatype FormError = MissingField

  /**
   * `add_local_transport`: a type and a description are required; the new
   * entry is appended last and the legs are left as they were.
   */
  function AddLocalTransport(d: Document, kind: string, description: string, prix: real): (r: Result<Document, FormError>)
    ensures r.Err? <==> |kind| == 0 || |description| == 0
    ensures r.Ok? ==>
      && |r.value.transport.surPlace| == |d.transport.surPlace| + 1
      && r.value.transport.surPlace[..|d.transport.surPlace|] == d.transport.surPlace
      && r.value.transport.surPlace[|d.transport.surPlace|] == LocalTransport(kind, description, prix)
      && r.value.transport.aller == d.transport.aller
      && r.value.transport.retour == d.transport.retour
      && r.value.(transport := d.transport) == d
  {
    if |kind| == 0 || |description| == 0 then Err(MissingField)
    else
      var t := d.transport;
      var next := t.(surPlace := t.surPlace + [LocalTransport(kind, description, prix)]);
      assert next.surPlace[..|t.surPlace|] == t.surPlace;
      Ok(Store.UpdateTransport(d, next))
  }

  /**
   * `delete_local_transport`: an index inside the list removes exactly that
   * entry, the others keeping their order; any other index changes nothing.
   */
  function DeleteLocalTransport(d: Document, index: int): (r: Document)
    ensures var s := d.transport.surPlace;
      0 <= index < |s| ==>
        && |r.transport.surPlace| == |s| - 1
        && (forall j :: 0 <= j < index ==> r.transport.surPlace[j] == s[j])
        && (forall j :: index <= j < |s| - 1 ==> r.transport.surPlace[j] == s[j + 1])
    ensures !(0 <= index < |d.transport.surPlace|) ==> r == d
    ensures r.transport.aller == d.transport.aller && r.transport.retour == d.transport.retour
    ensures r.(transport := d.transport) == d
  {
    var t := d.transport;
    if 0 <= index < |t.surPlace| then
      Store.UpdateTransport(d, t.(surPlace := t.surPlace[..index] + t.surPlace[index + 1..]))
    else d
  }

  /** Deleting the entry just added restores the document. */
  lemma AddThenDeleteLast(d: Document, kind: string, description: string, prix: real)
    requires |kind| > 0 && |description| > 0
    ensures AddLocalTransport(d, kind, description, prix).Ok?
    ensures DeleteLocalTransport(AddLocalTransport(d, kind, description, prix).value, |d.transport.surPlace|) == d
  {
    var added := AddLocalTransport(d, kind, description, prix).value;
    var s := d.transport.surPlace;
    var after := DeleteLocalTransport(added, |s|);
    assert after.transport.surPlace == s;
  }

  /**
   * `save_all`: both legs are replaced wholesale by the form's values; the
   * local transports are kept.
   */
  function SaveAll(d: Document, aller: Leg, retour: Leg): (r: Document)
    ensures r.transport.aller == aller && r.transport.retour == retour
    ensures r.transport.surPlace == d.transport.surPlace
    ensures r.(transport := d.transport) == d
  {
    Store.UpdateTransport(d, d.transport.(aller := aller, retour := retour))
  }

  /** Saving the legs already stored changes nothing, and saving twice is saving once. */
  lemma SaveAllIdempotent(d: Document, aller: Leg, retour: Leg)
    ensures SaveAll(d, d.transport.aller, d.transport.retour) == d
    ensures SaveAll(SaveAll(d, aller, retour), aller, retour) == SaveAll(d, aller, retour)
  {
  }
}

=== FILE: wrappers.dfy ===
/** Option and Result, the two failure-aware datatypes the model uses. */
module Wrappers {

  /** A value that may be absent, such as a key missing from a stored record. */
  datatype Option<+T> = None | Some(value: T) {

    /** The value, or `default` when it is absent: the store's lookup-with-default. */
    function GetOr(default: T): T {
      match this
      case Some(v) => v
      case None => default
    }
  }

  /** The outcome of a form action: the new value, or the reason it was refused. */
  datatype Result<+T, +E> = Ok(value: T) | Err(error: E)
}
